=== FILE: README.md ===
# Restaurant scraper pipeline — a Dafny model

This project models the core of a restaurant-data scraper. The pipeline has these parts:

- **Orchestrator** (`main.py`) walks the configured sources. A source whose URL carries the `{param}` placeholder is run once per configured city; any other source is run once under the label `unknown_city`.
- **Google Maps scraper** (`scrapers/googlemaps.py`) turns result cards into flat restaurant records. It then enriches each record, sequentially or on a thread pool, with a telephone number, an official site and de-duplicated social links taken from a search page.
- **Batch processor** (`utils/parser.py`) stamps every record with its city when it has none. It gives each record an identifier drawn from a persistent counter file and formatted as six zero-padded digits. It builds the canonical payload with its fixed default values and hands each payload to the Kafka sender.
- **Kafka sender** (`utils/sender.py`) is a lazily created, process-wide producer. It reports success only for acknowledged messages and is closed exactly once when the orchestrator finishes.
- **Test runner** (`test.py`) walks the sources of one named scraper and saves the raw results instead of sending them.

The outside world is passed in as parameters:

- whether the broker connection succeeds and whether each message is acknowledged;
- what the search page of a restaurant contains, or that fetching it fails;
- what the reverse geocoder answers;
- what a scraper returns for each unit;
- whether an adapter's `scrape` declares `use_parallel`;
- the order in which parallel enrichment tasks complete.

Everything else is pure functions over immutable data:

- scraped records are `map<string, Value>`, where `Value` stands for Python's `None`, `str`, `int` and `list[str]`;
- the counter file is `Absent`, `Holds(n)` or `Corrupt(text)`;
- the Kafka side is a log of events, from which the acknowledged messages are read back.

Modules, in dependency order:

- `Wrappers`: `Option` and `Result`.
- `Text`: Python's `strip`, `split`, `join` and `replace` on strings.
- `Decimal`: `str(int)`, `int(str)` and `{:06d}`.
- `Records`: values, truthiness, `dict.get`, the city stamp.
- `Allocator`: `get_next_id`.
- `Canonical`: `parse_item`.
- `Sender`: `utils/sender.py`.
- `Batch`: `process_city_results`.
- `Enrichment`: `enrich_restaurant_info`.
- `Cards`: the card-to-record step of `scrape_google_maps`.
- `GoogleMaps`: `scrape` and the two enrichment strategies.
- `Orchestrator`: `main.py`.
- `TestRun`: `test.py`.

## Model

| member | source | states |
|---|---|---|
| Allocator.ReadCounter | docker/scraper/utils/parser.py:20-21 | an existing counter file holds an integer exactly when its stripped text parses as one, and then holds that integer; otherwise it is corrupt with its text kept, and `int()` raises |
| Allocator.WrittenCounterReadsBack | docker/scraper/utils/parser.py:21-25 | the text written back for any counter value `n` reads back as exactly `n` on the next call |
| Allocator.NextId | docker/scraper/utils/parser.py:10-28 | drawing an id fails exactly when the counter file is corrupt; on success the file afterwards holds an integer |
| Allocator.NextIdMeaning | docker/scraper/utils/parser.py:12-28 | a missing file yields an id that parses to 1 and leaves the file holding 1; a file holding `n` yields an id of at least six characters that parses back to `n` and leaves `n + 1` |
| Allocator.IdsFromPresentCounter | docker/scraper/utils/parser.py:20-28 | drawing `n` ids from a file holding `c` yields the formatted values `c, c+1, …, c+n-1` and leaves the file holding `c + n` |
| Allocator.IdRangeIncreasing | docker/scraper/utils/parser.py:20-28 | ids drawn from a present counter are pairwise distinct and each parses back to its own counter value |
| Allocator.FirstTwoIdsCollide | docker/scraper/utils/parser.py:12-28 | from a missing counter file the first two ids drawn are both "000001" and the file ends holding 2 |
| Allocator.FreshCounterIds | docker/scraper/utils/parser.py:12-28 | from a missing counter file, after the colliding first pair, the i-th id is the formatted `i` and ids 1..n-1 are pairwise distinct; the file ends holding `n` |
| Allocator.RepeatStops | docker/scraper/utils/parser.py:85-91 | once one draw in a run of draws fails, every longer run fails too |
| Decimal.ParseFormat06 | docker/scraper/utils/parser.py:28 | `int()` of the `{:06d}` spelling of any integer, negative ones included, gives the integer back |
| Decimal.ParseIntToString | docker/scraper/utils/parser.py:21-25 | `int(str(n)) == n` for every integer |
| Decimal.Format06Shape | docker/scraper/utils/parser.py:28 | the `{:06d}` spelling is all digits, after a single minus sign for a negative value |
| Decimal.Format06Width | docker/scraper/utils/parser.py:28 | the `{:06d}` spelling is exactly six characters wide exactly when the counter lies strictly between -100000 and one million; outside that range the digits and sign widen it |
| Decimal.Format06Injective | docker/scraper/utils/parser.py:28 | different counter values never get the same id |
| Decimal.Format06Value | docker/scraper/utils/parser.py:28 | the `{:06d}` spelling of a non-negative value is all digits and denotes that value |
| Decimal.PadZeros | docker/scraper/utils/parser.py:28 | zero padding keeps the digits' value and widens to the requested width only when the string is shorter |
| Canonical.CoordOf | docker/scraper/utils/parser.py:37-38 | a coordinate is taken from the record exactly when its key is present with a truthy value; otherwise it is zero |
| Canonical.PhoneOf | docker/scraper/utils/parser.py:41-43 | the payload phone is always truthy: the record's telephone when truthy, the default number otherwise |
| Canonical.BuildPayloadFields | docker/scraper/utils/parser.py:46-70 | name, address line and city are copied when their key is present (whatever the value) and take their defaults only when absent; RC is the drawn id; the fixed fields hold their constants; socials, site, rating, review count, cuisine and price range are copied when present (whatever the value) and become `[]` or `None` only when absent |
| Canonical.ParseItem | docker/scraper/utils/parser.py:30-34 | parsing an item fails exactly when drawing its id fails, and otherwise builds the payload around the drawn id and advances the counter |
| Canonical.BuildPayloadFrame | docker/scraper/utils/parser.py:46-70 | the payload depends only on the keys `parse_item` reads: records agreeing on those give equal payloads |
| Canonical.PayloadsDifferOnlyInId | docker/scraper/utils/parser.py:46-70 | two payloads built from one record differ only in their RC, and are equal exactly when the ids are |
| Canonical.CityOnlyRecordGetsDefaults | docker/scraper/utils/parser.py:46-70 | a record holding only its city becomes the all-defaults payload for that city |
| Canonical.PresentNullPassesThrough | docker/scraper/utils/parser.py:41-47 | a name or social list present as `None` stays `None`, while a telephone present as `None` is replaced by the default |
| Records.StampCity | docker/scraper/utils/parser.py:87-88 | stamping adds the key "city" with the batch city only when it is missing and never changes another value |
| Records.StampCityIdempotent | docker/scraper/utils/parser.py:87-88 | once a record has been stamped, stamping it again with any city changes nothing |
| Batch.ProcessCityResults | docker/scraper/utils/parser.py:74-109 | an empty batch returns `None` and touches neither file nor broker; a corrupt counter fails the batch before anything is sent; otherwise every item is stamped, gets the next id in order and is offered to the broker once, the returned list is the payloads in input order whatever the acknowledgements, and the counter advances by the batch length |
| Batch.CorruptCounterFailsBatch | docker/scraper/utils/parser.py:20-21 | a corrupt counter file makes the first draw of any non-empty batch fail with its text |
| Batch.PayloadCity | docker/scraper/utils/parser.py:52 | a stamped item's payload city is its own city when it had one, the batch city otherwise |
| Batch.DefaultCityUnreachable | docker/scraper/utils/parser.py:52 | after stamping, the default city "Lahore" appears only when the item or the batch names it |
| Sender.NewSender | docker/scraper/utils/sender.py:12-31 | a new sender targets the fixed topic and servers and has a producer with the fixed config exactly when the connection succeeds; it adds no acknowledged message |
| Sender.Send | docker/scraper/utils/sender.py:33-50 | a send reports success exactly when a producer exists and the broker acknowledges; only then is the message recorded as acknowledged, and only on the sender's topic |
| Sender.Close | docker/scraper/utils/sender.py:52-57 | with a producer, closing flushes and then closes it; with none, it does nothing; either way no acknowledged message is added |
| Sender.GetSender | docker/scraper/utils/sender.py:60-67 | the global sender is created on first use and then returned unchanged |
| Sender.GetSenderReuses | docker/scraper/utils/sender.py:62-67 | once the global sender exists, later connection outcomes do not matter |
| Sender.SendToKafka | docker/scraper/utils/sender.py:69-72 | the module-level send reports the global sender's own result and leaves the global sender in place |
| Sender.SendToKafkaMessages | docker/scraper/utils/sender.py:69-72 | an acknowledged send appends exactly its message to the acknowledged messages; a failed one appends nothing |
| Sender.CloseSender | docker/scraper/utils/sender.py:74-79 | closing the module sender always clears the global; with no global it changes nothing; with one, it adds exactly that sender's close events to the log |
| Sender.CloseSenderMessages | docker/scraper/utils/sender.py:74-79 | closing never changes the acknowledged messages |
| Sender.CloseSenderIdempotent | docker/scraper/utils/sender.py:74-79 | closing twice is closing once |
| Sender.SendAllGrows | docker/scraper/utils/sender.py:69-72 | a run of sends only ever adds to the acknowledged messages |
| Sender.FailedConnectIsSticky | docker/scraper/utils/sender.py:35-37 | once the global sender failed to connect, every later send in the run fails and nothing is acknowledged |
| Sender.ConnectedBatchFlags | docker/scraper/utils/sender.py:39-44 | with a connected global sender each send's result is its acknowledgement |
| Sender.ConnectedBatchDelivers | docker/scraper/utils/sender.py:39-44 | with a connected global sender a batch adds exactly its acknowledged messages, in order |
| Sender.CloseThenReconnect | docker/scraper/utils/sender.py:62-79 | after closing, the next send builds a new sender, so whether it succeeds depends on the new connection |
| Enrichment.KeepSocials | docker/scraper/scrapers/googlemaps.py:66-71 | the kept links are exactly the non-empty hrefs that contain a social domain |
| Enrichment.KeepSocialsOne | docker/scraper/scrapers/googlemaps.py:66-71 | a single href is kept exactly when it is a non-empty social link |
| Enrichment.KeepSocialsAppend | docker/scraper/scrapers/googlemaps.py:66-71 | filtering keeps page order: the links kept from two runs of hrefs are those of the first followed by those of the second |
| Enrichment.Dedup | docker/scraper/scrapers/googlemaps.py:72 | de-duplication keeps every element, drops only repeats and leaves no duplicates |
| Enrichment.DedupKeepsFirstOccurrenceOrder | docker/scraper/scrapers/googlemaps.py:72 | de-duplicated links appear in the order of their first occurrence |
| Enrichment.WriteFoundTwice | docker/scraper/scrapers/googlemaps.py:75-77 | writing the same findings twice is writing them once |
| Enrichment.EnrichRestaurantInfo | docker/scraper/scrapers/googlemaps.py:31-85 | a record with a falsy name comes back unchanged; enrichment raises exactly when the name is truthy but not a string |
| Enrichment.EnrichEffect | docker/scraper/scrapers/googlemaps.py:43-85 | enrichment adds exactly the three enrichment keys and keeps every other value; a failed fetch writes `None`, `None`, `[]`, a successful one writes the page's phone, site and de-duplicated social links |
| Enrichment.EnrichedSocials | docker/scraper/scrapers/googlemaps.py:66-77 | the stored social links are free of duplicates and non-empty, and are exactly the social hrefs of the page |
| Enrichment.EnrichIdempotent | docker/scraper/scrapers/googlemaps.py:31-85 | enriching an enriched record again with the same page gives the same record |
| Enrichment.EnrichOrKeep | docker/scraper/scrapers/googlemaps.py:193-199 | a record whose enrichment raised is kept as it was; otherwise the enriched record is used |
| Cards.TextField | docker/scraper/scrapers/googlemaps.py:125-126 | a text field is `None` when its element is missing or empty, and is otherwise the stripped text |
| Cards.ReviewField | docker/scraper/scrapers/googlemaps.py:135-136 | the review count is `None` for a missing or empty element, and is otherwise the text stripped of whitespace and then of parentheses |
| Cards.ReviewCountBare | docker/scraper/scrapers/googlemaps.py:136 | a non-empty review count neither starts nor ends with a parenthesis |
| Cards.PriceFieldIsFirstPriceSpan | docker/scraper/scrapers/googlemaps.py:139-144 | the price range is the stripped text of the first span whose stripped text starts with "MAD" |
| Cards.PriceFieldNone | docker/scraper/scrapers/googlemaps.py:139-144 | the price range is `None` exactly when no span's stripped text starts with "MAD" |
| Cards.Search | docker/scraper/scrapers/googlemaps.py:153 | the coordinate search finds the leftmost position where the `!3d…!4d…` pattern matches, and there is none exactly when no position matches |
| Cards.MatchAtShape | docker/scraper/scrapers/googlemaps.py:153-155 | a match captures two non-empty runs of digits, `-` and `.`, and the URL spells `!3d<lat>!4d<lng>` at that position |
| Cards.CardRecord | docker/scraper/scrapers/googlemaps.py:123-173 | each card becomes a record with exactly the ten fixed keys and source "googlemaps"; latitude and longitude are both present or both `None`; no URL means no coordinates; an address is looked up only when both coordinates are truthy, and is then the geocoder's answer or `None`; name, rating and cuisine are the stripped selector texts or `None`; the URL is the maps prefix plus a non-empty href, else `None` |
| Cards.CardCoordinates | docker/scraper/scrapers/googlemaps.py:151-159 | the coordinates are the two groups of the first match in the card URL; with no URL or no match, coordinates and address are all `None` |
| Cards.ScrapeGoogleMaps | docker/scraper/scrapers/googlemaps.py:122-178 | one record per card, in card order |
| GoogleMaps.EnrichSequential | docker/scraper/scrapers/googlemaps.py:216-220 | sequential enrichment succeeds exactly when no record raises; it then returns the enriched records in input order, and otherwise fails at the first record that raised |
| GoogleMaps.SequentialIsKeptAll | docker/scraper/scrapers/googlemaps.py:193-220 | when sequential enrichment succeeds it agrees element-wise with the keep-on-error enrichment used by the parallel path |
| GoogleMaps.EnrichParallel | docker/scraper/scrapers/googlemaps.py:180-201 | a non-positive worker count raises; otherwise every input record appears exactly once, enriched or kept as it was, in some completion order |
| GoogleMaps.Scrape | docker/scraper/scrapers/googlemaps.py:203-220 | sequential mode is card extraction followed by sequential enrichment; parallel mode returns one record per card, as a permutation of the enriched records, and, once the cards are given, fails only for a non-positive worker count |
| Orchestrator.OptionsFor | docker/scraper/main.py:50-53 | parallelism options are passed exactly to adapters whose `scrape` declares `use_parallel` |
| Orchestrator.SourceCalls | docker/scraper/main.py:42-69 | a templated source gives one call per city with `{param}` replaced by the city and the city as label; any other source gives one call with its URL unchanged and the label "unknown_city" |
| Orchestrator.PlanAppend | docker/scraper/main.py:42-71 | the calls are the sources' calls concatenated in source order |
| Orchestrator.TemplatedUrl | docker/scraper/main.py:45 | replacing `{param}` joins the template's placeholder-free pieces with the city, and splitting at the placeholder loses nothing |
| Orchestrator.RunMain | docker/scraper/main.py:42-74 | the loop's final counter file and sender state are those of `RunUnits` over the completed units, and the next unit raised when the loop stopped early, either in its scrape or because a corrupt counter met records; the `finally` clause then closes exactly that sender state, which keeps the sender the run started with and holds a sender whenever a completed unit had records; a corrupt counter leaves file and sender untouched; acknowledged messages are never lost |
| Orchestrator.UnitStepEffect | docker/scraper/utils/parser.py:74-109 | processing one unit's records only adds acknowledged messages, keeps an existing sender, and leaves a sender behind when there were records |
| Orchestrator.BatchesProperties | docker/scraper/utils/parser.py:74-109 | `process_city_results` skips an empty batch unchanged, raises on a corrupt counter when there are records, only adds acknowledged messages, and keeps or creates the global sender |
| Orchestrator.ProcessedIsUnitStep | docker/scraper/main.py:56-69 | whatever outcome meets the batch processor's contract is the loop's step: `None` when it raises, otherwise the counter file and sender it leaves |
| Orchestrator.RunUnitsStopsForGood | docker/scraper/main.py:42-74 | once a unit raises, no later unit runs |
| Orchestrator.RunUnitsGrows | docker/scraper/main.py:42-71 | completed units only add acknowledged messages |
| Orchestrator.RunUnitsSender | docker/scraper/main.py:42-74 | after the completed units the sender is the one the run started with, if any; it exists whenever some completed unit had records; with no start sender and no records, nothing changed |
| Orchestrator.CorruptCounterStops | docker/scraper/main.py:42-71 | on a corrupt counter only units without records complete and they change nothing; the first unit with records raises |
| Orchestrator.BatchRunOutcome | docker/scraper/main.py:42-74 | the completed units' scrapes all returned, acknowledged messages grow, the start sender is kept, a sender exists once a unit had records, and a corrupt counter changes nothing |
| TestRun.FindSource | docker/scraper/test.py:77-85 | the selected source is the first one whose scraper name matches, and there is none exactly when no name matches |
| TestRun.SelectedCities | docker/scraper/test.py:68-74 | a non-empty `--ville` selects that single city; otherwise the configured cities are used |
| TestRun.TestUnits | docker/scraper/test.py:88-131 | one unit per selected city, or only the first when a city was named; a templated source gets the city's URL and label, any other source its own URL under the label "general" |
| TestRun.TestPlan | docker/scraper/test.py:76-131 | an unknown scraper name runs nothing; otherwise the units are those of the first matching source |
| TestRun.SingleCityRunsOnce | docker/scraper/test.py:68-70 | naming a city runs exactly one unit, labelled with that city or "general" |
| TestRun.StampAll | docker/scraper/test.py:104-106 | every result is stamped with the city unless it already has one, keeping order and count |
| TestRun.SaveResults | docker/scraper/test.py:30-48 | an empty result list saves nothing and returns `None`; a non-empty one is saved and returned unchanged |
| TestRun.SavedBatchesComplete | docker/scraper/test.py:88-125 | every unit that ran and produced results has its batch saved under its label |
| TestRun.RunTest | docker/scraper/test.py:88-134 | units run in order until one raises, each outcome chosen by the unit's position and call, so a repeated call may fail later; the saved batches are exactly those of the units that completed with results |
| Text.StripCharsSlice | docker/scraper/utils/parser.py:21 | `strip` returns the longest middle slice whose ends lie outside the stripped set, having removed only characters from that set |
| Text.SplitJoinRoundTrip | docker/scraper/main.py:45 | joining the split pieces with the separator gives back the original string |
| Text.ReplaceIsJoinOfSplit | docker/scraper/main.py:45 | replacing every occurrence is splitting at the pattern and joining with the replacement |
| Text.SplitPiecesAreFree | docker/scraper/main.py:45 | no split piece contains the pattern |

## Left out

- Network access is out of scope. The outcomes of the Kafka connection and its acknowledgements, the Google search page fetch and the Nominatim reverse geocoder are parameters. The `KafkaError` versus other-exception split is not modelled, since both report `False`.
- Browser automation and HTML are out of scope. This covers the scroll loop, the CSS selectors, the card list and the page's phone-regex lookup. A card is modelled as the texts its selectors return. The search page is modelled as the phone and site it yields plus its list of hrefs.
- The "fewer than 5 cards" warning and all logging are left out, because they change no data.
- The regular expression's `\d` is taken as the ASCII digits. Python's `str` pattern also matches other Unicode decimal digits.
- `int()` is modelled for optional surrounding whitespace, an optional `+` or `-` sign and ASCII digits. Underscores between digits and non-ASCII digits are accepted by Python and are not modelled.
- `float()` of latitude and longitude is not modelled: a coordinate is either zero or the raw truthy value. An unparsable coordinate raises `ValueError` in `parse_item`, and that path is not modelled.
- JSON serialisation of payloads, the timestamped output files of `process_city_results` and `save_results`, and `os.makedirs` are left out, because they write files the pipeline never reads back. The counter file is modelled, because its contents feed the next id.
- In-place mutation of the caller's record dicts is left out. Operations return new records. Python's aliasing is only visible to callers that keep the original list, and none of the modelled code does.
- Threads are not modelled. Parallel enrichment is modelled only by its result: some completion order of the keep-on-error enrichment of every record.
- `signal` handlers, `argparse`, `loader.py` and `runner.py` are not part of this model. Adapter loading is modelled as the `scrapeResult` and `declaresParallel` parameters, with `None` standing for a raised exception.
- Reading `config/sources.json` and `config/villes_maroc.json` is left out. The sources and cities are parameters, so a `KeyError` on a malformed source is not modelled.
- The scripts under `docker/tests/` are not part of this model.
- Enrichment.EnrichRestaurantInfo: the search page is a function of the search URL alone, so two restaurants with the same name and city see the same page or the same failure. A transient failure that hits only one of them is not modelled.
- Sender.Send: a publish reported as failed after its 10-second wait may still reach the broker later, through the producer's three retries or the flush in `close()`. The model records only acknowledged messages, so it does not say what the broker finally holds.
- GoogleMaps.Scrape: the page load in `scrape_google_maps` (starting the browser, `driver.get`, waiting for the result feed) can raise, and is left out. The cards are given, so the contract says when the scrape fails only once they are.

Behaviours of the code worth noting:

- Payload defaults replace a key only when it is absent. A key present with an empty or `None` value is copied through. The one exception is the telephone, which falls back whenever it is falsy.
- A fresh counter file writes 1 and returns "000001". The next call then also returns "000001", so the first two ids collide (`Allocator.FirstTwoIdsCollide`).
- A non-positive worker count makes the thread pool raise instead of running with one worker.
- An exception from any unit ends the orchestrator's whole loop; the `finally` still closes the sender.
- The test runner scrapes a non-templated source once per selected city, saving each result under "general".

=== FILE: allocator.dfy ===
/** The identifier allocator of `utils/parser.py` (`get_next_id`): a counter
    persisted as text in a file that may not exist yet. */
module Allocator {
  import opened Wrappers
  import opened Text
  import opened Decimal

  /** The counter file as `get_next_id` reads it: missing, holding an
      integer, or holding text on which `int(...)` raises. */
  datatype CounterFile = Absent | Holds(n: int) | Corrupt(text: string)

  /** `int(f.read().strip())` raised: the file holds no integer. */
  datatype AllocError = CorruptCounter(text: string)

  /** How the text of an existing counter file reads. */
  function ReadCounter(text: string): (f: CounterFile)
    ensures f.Holds? || f.Corrupt?
    ensures f.Holds? <==> ParseInt(Strip(text)).Some?
    ensures f.Holds? ==> ParseInt(Strip(text)) == Some(f.n)
    ensures f.Corrupt? ==> f.text == text
  {
    match ParseInt(Strip(text))
    case Some(n) => Holds(n)
    case None => Corrupt(text)
  }

  /** What `f.write(str(n))` leaves: text that reads back as `n`. */
  lemma WrittenCounterReadsBack(n: int)
    ensures ReadCounter(IntToString(n)) == Holds(n)
  {
    var t := IntToString(n);
    IntToStringEnds(n);
    assert '-' !in Whitespace;
    StripCharsNoop(t, Whitespace);
    ParseIntToString(n);
  }

  /** `get_next_id()`: a missing file is created holding 1 and the call
      returns "000001"; a file holding `c` is rewritten to hold `c + 1` and
      the call returns `c` zero-padded to six digits; a file holding no
      integer makes the call raise. */
  function NextId(f: CounterFile): (r: Result<(string, CounterFile), AllocError>)
    ensures r.Success? <==> !f.Corrupt?
    ensures r.Success? ==> r.value.1.Holds?
  {
    match f
    case Absent => Success(("000001", Holds(1)))
    case Holds(c) => Success((Format06(c), Holds(c + 1)))
    case Corrupt(t) => Failure(CorruptCounter(t))
  }

  /** What one call means: the identifier reads back as the value found
      (1 on a fresh file), has at least six characters, and the file then
      holds one more than the identifier's value. On a fresh file that
      relation breaks: the identifier is 1 and the file holds 1 as well. */
  lemma NextIdMeaning(f: CounterFile)
    requires !f.Corrupt?
    ensures var (id, f') := NextId(f).value;
      && |id| >= 6
      && ParseInt(id).Some?
      && (f.Holds? ==> ParseInt(id) == Some(f.n) && f' == Holds(f.n + 1))
      && (f.Absent? ==> ParseInt(id) == Some(1) && f' == Holds(1))
  {
    if f.Absent? {
      assert Format06(1) == "000001";
      ParseFormat06(1);
    } else {
      ParseFormat06(f.n);
    }
  }

  /** `n` successive runs of a step that may raise, threading its state
      and stopping at the first raise. */
  function Repeat<S, X, E>(step: S -> Result<(X, S), E>, s: S, n: nat): (r: Result<(seq<X>, S), E>)
    ensures r.Success? ==> |r.value.0| == n
    decreases n
  {
    if n == 0 then Success(([], s))
    else
      match step(s)
      case Failure(e) => Failure(e)
      case Success(first) =>
        match Repeat(step, first.1, n - 1)
        case Failure(e) => Failure(e)
        case Success(rest) => Success(([first.0] + rest.0, rest.1))
  }

  /** Running `n + 1` steps is running `n`, then one more. */
  lemma {:induction false} RepeatExtend<S, X, E>(step: S -> Result<(X, S), E>, s: S, n: nat)
    requires Repeat(step, s, n).Success?
    requires step(Repeat(step, s, n).value.1).Success?
    ensures Repeat(step, s, n + 1) == Success((
      Repeat(step, s, n).value.0 + [step(Repeat(step, s, n).value.1).value.0],
      step(Repeat(step, s, n).value.1).value.1))
    decreases n
  {
    if n == 0 {
      assert Repeat(step, s, 0).value.1 == s;
      var b := step(s).value;
      assert Repeat(step, b.1, 0) == Success(([], b.1));
      assert step(s) == Success(b);
      assert Repeat(step, s, 1) == Success(([b.0] + [], b.1));
      assert [b.0] + [] == [b.0];
      assert Repeat(step, s, 0).value.0 + [b.0] == [b.0];
    } else {
      var a := step(s).value;
      RepeatExtend(step, a.1, n - 1);
      var rest := Repeat(step, a.1, n - 1).value;
      var b := step(rest.1).value;
      assert [a.0] + (rest.0 + [b.0]) == ([a.0] + rest.0) + [b.0];
    }
  }

  /** Once a step raises, every longer run raises too. */
  lemma {:induction false} RepeatStops<S, X, E>(step: S -> Result<(X, S), E>, s: S, n: nat, m: nat)
    requires Repeat(step, s, n).Success?
    requires step(Repeat(step, s, n).value.1).Failure?
    requires m > n
    ensures Repeat(step, s, m).Failure?
    decreases n
  {
    if n > 0 {
      var a := step(s).value;
      RepeatStops(step, a.1, n - 1, m - 1);
    }
  }

  /** `n` successive calls of `get_next_id()`, stopping at the first that raises. */
  function AllocateMany(f: CounterFile, n: nat): Result<(seq<string>, CounterFile), AllocError> {
    Repeat(NextId, f, n)
  }

  /** `out(c)`, ..., `out(c + n - 1)`. */
  function Counted<X>(out: int -> X, c: int, n: nat): (xs: seq<X>)
    ensures |xs| == n
  {
    seq(n, i => out(c + i))
  }

  /** A step that reads an integer `k`, answers `out(k)` and stores `k + 1`,
      run `n` times from `c`, answers `out(c)`, ..., `out(c + n - 1)` and
      stores `c + n`. */
  lemma {:induction false} CountingRun<X, E>(step: CounterFile -> Result<(X, CounterFile), E>,
                                            out: int -> X, c: int, n: nat)
    requires forall k :: step(Holds(k)) == Success((out(k), Holds(k + 1)))
    ensures Repeat(step, Holds(c), n) == Success((Counted(out, c, n), Holds(c + n)))
    decreases n
  {
    if n > 0 {
      CountingRun(step, out, c + 1, n - 1);
      var rest := Counted(out, c + 1, n - 1);
      var ids := [out(c)] + rest;
      assert Repeat(step, Holds(c), n) == Success((ids, Holds(c + n)));
      forall i | 0 <= i < n
        ensures ids[i] == Counted(out, c, n)[i]
      {
        if i > 0 {
          assert ids[i] == rest[i - 1] == out(c + 1 + (i - 1));
        }
      }
      assert ids == Counted(out, c, n);
    }
  }

  /** The identifiers for the values `c`, ..., `c + n - 1`. */
  function IdRange(c: int, n: nat): (ids: seq<string>)
    ensures |ids| == n
  {
    Counted(Format06, c, n)
  }

  /** On a file holding an integer, `get_next_id` is a counting step. */
  lemma NextIdCounts()
    ensures forall k :: NextId(Holds(k)) == Success((Format06(k), Holds(k + 1)))
  {
  }

  /** From a file holding `c`, the calls return `c`, `c + 1`, ... zero-padded
      to six digits, and the file ends up holding `c + n`. */
  lemma IdsFromPresentCounter(c: int, n: nat)
    ensures AllocateMany(Holds(c), n) == Success((IdRange(c, n), Holds(c + n)))
  {
    NextIdCounts();
    CountingRun(NextId, Format06, c, n);
  }

  /** The identifier at position `i` of a run reads back as `c + i`. */
  lemma IdRangeAt(c: int, n: nat, i: nat)
    requires i < n
    ensures IdRange(c, n)[i] == Format06(c + i)
    ensures ParseInt(IdRange(c, n)[i]) == Some(c + i)
  {
    ParseFormat06(c + i);
  }

  /** Such a run of identifiers is pairwise distinct and strictly increasing
      when read back as integers. */
  lemma IdRangeIncreasing(c: int, n: nat)
    ensures forall i, j :: 0 <= i < j < n ==>
      && IdRange(c, n)[i] != IdRange(c, n)[j]
      && ParseInt(IdRange(c, n)[i]) == Some(c + i)
      && ParseInt(IdRange(c, n)[j]) == Some(c + j)
  {
    forall i, j | 0 <= i < j < n
      ensures IdRange(c, n)[i] != IdRange(c, n)[j]
      ensures ParseInt(IdRange(c, n)[i]) == Some(c + i)
      ensures ParseInt(IdRange(c, n)[j]) == Some(c + j)
    {
      IdRangeAt(c, n, i);
      IdRangeAt(c, n, j);
      Format06Injective(c + i, c + j);
    }
  }

  /** The defect of `get_next_id`: on a fresh counter the first two calls
      both return "000001" (the first writes 1, the second reads that 1). */
  lemma FirstTwoIdsCollide()
    ensures AllocateMany(Absent, 2) == Success((["000001", "000001"], Holds(2)))
  {
    FreshCounterIds(2);
    var ids := AllocateMany(Absent, 2).value.0;
    assert ids == ["000001", "000001"];
  }

  /** On a fresh counter, after the collision, the call numbered `i` (from 0)
      returns `i` zero-padded to six digits for every `i >= 1`, so the
      identifiers from the second call on are pairwise distinct, and the file
      ends up holding `n`. */
  lemma FreshCounterIds(n: nat)
    requires n >= 2
    ensures AllocateMany(Absent, n).Success?
    ensures var ids := AllocateMany(Absent, n).value.0;
      && |ids| == n
      && ids[0] == ids[1] == "000001"
      && (forall i :: 1 <= i < n ==> ids[i] == Format06(i))
      && (forall i, j :: 1 <= i < j < n ==> ids[i] != ids[j])
    ensures AllocateMany(Absent, n).value.1 == Holds(n)
  {
    IdsFromPresentCounter(1, n - 1);
    var rest := IdRange(1, n - 1);
    var ids := ["000001"] + rest;
    assert Repeat(NextId, Absent, n) == Success((ids, Holds(n)));
    IdRangeAt(1, n - 1, 0);
    assert Format06(1) == "000001";
    forall i | 1 <= i < n
      ensures ids[i] == Format06(i)
    {
      IdRangeAt(1, n - 1, i - 1);
    }
    forall i, j | 1 <= i < j < n
      ensures ids[i] != ids[j]
    {
      IdRangeAt(1, n - 1, i - 1);
      IdRangeAt(1, n - 1, j - 1);
      Format06Injective(i, j);
    }
  }
}

=== FILE: batch.dfy ===
/** `process_city_results`: stamp, identify, publish and collect one city's
    scraped records. */
module Batch {
  import opened Wrappers
  import opened Records
  import opened Allocator
  import opened Canonical
  import opened Sender

  /** The publishes of a batch: payload `i` is sent with the `i`-th
      connection and acknowledgement outcomes. */
  function Attempts(ps: seq<Payload>, connectOk: nat -> bool, acked: nat -> bool): (a: seq<Attempt<Payload>>)
    ensures |a| == |ps|
    ensures forall i :: 0 <= i < |ps| ==> a[i] == Attempt(ps[i], connectOk(i), acked(i))
  {
    seq(|ps|, i requires 0 <= i < |ps| => Attempt(ps[i], connectOk(i), acked(i)))
  }

  /** Publishing one more attempt after a batch. */
  lemma {:induction false} SendAllExtend<M>(st: SinkState<M>, a: seq<Attempt<M>>, x: Attempt<M>)
    ensures SendAll(st, a + [x]).0 == SendToKafka(SendAll(st, a).0, x.msg, x.connectOk, x.acked).0
    decreases |a|
  {
    if a == [] {
      assert a + [x] == [x];
      assert [x][1..] == [];
    } else {
      var st1 := SendToKafka(st, a[0].msg, a[0].connectOk, a[0].acked).0;
      assert (a + [x])[0] == a[0];
      assert (a + [x])[1..] == a[1..] + [x];
      SendAllExtend(st1, a[1..], x);
    }
  }

  /** The payloads of a batch: record `i`, stamped with the city, under
      identifier `ids[i]`. */
  function BatchPayloads(items: seq<Record>, city: string, ids: seq<string>): (ps: seq<Payload>)
    requires |ids| == |items|
    ensures |ps| == |items|
  {
    seq(|items|, i requires 0 <= i < |items| => BuildPayload(StampCity(items[i], city), ids[i]))
  }

  /** Building the payloads of one more record appends its payload. */
  lemma BatchPayloadsSnoc(items: seq<Record>, city: string, ids: seq<string>, id: string)
    requires |ids| < |items|
    ensures BatchPayloads(items[..|ids| + 1], city, ids + [id])
      == BatchPayloads(items[..|ids|], city, ids) + [BuildPayload(StampCity(items[|ids|], city), id)]
  {
    var i := |ids|;
    var l := BatchPayloads(items[..i], city, ids) + [BuildPayload(StampCity(items[i], city), id)];
    var r := BatchPayloads(items[..i + 1], city, ids + [id]);
    forall j | 0 <= j < i + 1
      ensures r[j] == l[j]
    {
      assert items[..i + 1][j] == items[j];
      if j < i {
        assert items[..i][j] == items[j];
        assert (ids + [id])[j] == ids[j];
      }
    }
  }

  /** The loop step of `process_city_results` for the payloads: one more
      identifier drawn, one more payload built from it. */
  lemma PayloadsExtend(items: seq<Record>, city: string, file: CounterFile, i: nat)
    requires i < |items|
    requires AllocateMany(file, i).Success?
    requires NextId(AllocateMany(file, i).value.1).Success?
    ensures AllocateMany(file, i + 1).Success?
    ensures AllocateMany(file, i + 1).value.1 == NextId(AllocateMany(file, i).value.1).value.1
    ensures BatchPayloads(items[..i + 1], city, AllocateMany(file, i + 1).value.0)
      == BatchPayloads(items[..i], city, AllocateMany(file, i).value.0)
         + [ParseItem(StampCity(items[i], city), AllocateMany(file, i).value.1).value.0]
  {
    RepeatExtend(NextId, file, i);
    var drawn := AllocateMany(file, i).value;
    BatchPayloadsSnoc(items, city, drawn.0, NextId(drawn.1).value.0);
  }

  /** The loop step of `process_city_results` for the sink. */
  lemma SinkExtend(sink: SinkState<Payload>, ps: seq<Payload>, p: Payload, connectOk: nat -> bool, acked: nat -> bool)
    ensures SendAll(sink, Attempts(ps + [p], connectOk, acked)).0 ==
      SendToKafka(SendAll(sink, Attempts(ps, connectOk, acked)).0, p, connectOk(|ps|), acked(|ps|)).0
  {
    var x := Attempt(p, connectOk(|ps|), acked(|ps|));
    SendAllExtend(sink, Attempts(ps, connectOk, acked), x);
    var l := Attempts(ps, connectOk, acked) + [x];
    forall j | 0 <= j < |ps| + 1
      ensures Attempts(ps + [p], connectOk, acked)[j] == l[j]
    {
      if j < |ps| {
        assert (ps + [p])[j] == ps[j];
      }
    }
    assert Attempts(ps + [p], connectOk, acked) == l;
  }

  /** On a corrupt counter file the very first identifier raises. */
  lemma CorruptCounterFailsBatch(file: CounterFile, n: nat)
    requires file.Corrupt? && n > 0
    ensures AllocateMany(file, n) == Failure(CorruptCounter(file.text))
  {
  }

  /** The city recorded in the payload of a record stamped with `city`. */
  function StampedCity(item: Record, city: string): Value {
    if "city" in item then item["city"] else Str(city)
  }

  /** `process_city_results(items, city)`. The result is `Success(None)` for an
      empty batch, `Failure` when drawing an identifier raises, and otherwise
      the processed payloads. `connectOk(i)` and `acked(i)` are the broker's
      behaviour while payload `i` is published. The JSON file written at the
      end is not modelled. */
  method ProcessCityResults(items: seq<Record>, city: string, file: CounterFile, sink: SinkState<Payload>,
                            connectOk: nat -> bool, acked: nat -> bool)
    returns (res: Result<Option<seq<Payload>>, AllocError>, file': CounterFile, sink': SinkState<Payload>)
    ensures items == [] ==> res == Success(None) && file' == file && sink' == sink
    ensures items != [] && file.Corrupt? ==> res == Failure(CorruptCounter(file.text)) && file' == file && sink' == sink
    ensures res.Success? <==> AllocateMany(file, |items|).Success?
    ensures res.Failure? ==> items != [] && file.Corrupt? && file' == file && sink' == sink
    ensures items != [] && res.Success? ==> file'.Holds?
    ensures items != [] && res.Success? ==>
      var drawn := AllocateMany(file, |items|).value;
      && res.value.Some?
      && res.value.value == BatchPayloads(items, city, drawn.0)
      && file' == drawn.1
      && sink' == SendAll(sink, Attempts(res.value.value, connectOk, acked)).0
  {
    if items == [] {
      return Success(None), file, sink;
    }
    var ps: seq<Payload> := [];
    var f := file;
    var st := sink;
    var i := 0;
    while i < |items|
      invariant 0 <= i <= |items|
      invariant AllocateMany(file, i).Success? && f == AllocateMany(file, i).value.1
      invariant i == 0 ==> f == file && st == sink
      invariant i > 0 ==> f.Holds?
      invariant ps == BatchPayloads(items[..i], city, AllocateMany(file, i).value.0)
      invariant st == SendAll(sink, Attempts(ps, connectOk, acked)).0
    {
      var item := StampCity(items[i], city);
      var parsed := ParseItem(item, f);
      if parsed.Failure? {
        assert i == 0 && f == file && st == sink;
        CorruptCounterFailsBatch(file, |items|);
        return Failure(parsed.error), f, st;
      }
      var p := parsed.value.0;
      var f1 := parsed.value.1;
      assert f1 == NextId(f).value.1;
      PayloadsExtend(items, city, file, i);
      var sent := SendToKafka(st, p, connectOk(i), acked(i));
      SinkExtend(sink, ps, p, connectOk, acked);
      ps := ps + [p];
      f := f1;
      st := sent.0;
      i := i + 1;
    }
    assert items[..i] == items;
    return Success(Some(ps)), f, st;
  }

  /** Every payload of a batch carries the record's own city, or the batch's
      city when the record had none. */
  lemma PayloadCity(item: Record, city: string, id: string)
    ensures BuildPayload(StampCity(item, city), id).address.city == StampedCity(item, city)
  {
  }

  /** The default city "Lahore" of `parse_item` never shows up in a batch
      unless it was the record's own city or the batch's: every record is
      stamped with the batch's city first. */
  lemma DefaultCityUnreachable(item: Record, city: string, id: string)
    requires city != DefaultCity
    requires "city" in item ==> item["city"] != Str(DefaultCity)
    ensures BuildPayload(StampCity(item, city), id).address.city != Str(DefaultCity)
  {
  }
}

=== FILE: canonical.dfy ===
/** The canonical payload `parse_item` builds from a scraped record. */
module Canonical {
  import opened Wrappers
  import opened Records
  import opened Allocator

  /** A coordinate: the literal `0` when the record has no usable value, or
      `float(raw)` of the value found. The float conversion itself is not
      modelled, so the raw value is kept. */
  datatype Coord = Zero | FloatOf(raw: Value)

  datatype Address = Address(line: Value, line2: string, city: Value, country: string, zip: string)

  datatype Coordinates = Coordinates(lat: Coord, lng: Coord)

  datatype Payload = Payload(
    companyName: Value,
    companyRC: string,
    address: Address,
    email: string,
    phone: Value,
    language: string,
    coordinates: Coordinates,
    website: Value,
    socialNetworks: Value,
    rating: Value,
    reviewCount: Value,
    cuisine: Value,
    priceRange: Value)

  const DefaultName := "Unknown"
  const DefaultAddressLine := "test address"
  const AddressLine2 := "test address_line2"
  const DefaultCity := "Lahore"
  const Country := "Maroc"
  const Zip := "54000"
  const Email := "test@test.com"
  const DefaultPhone := "12345676543"
  const Language := "fr"

  /** The keys of the scraped record that `parse_item` looks at. */
  const ReadKeys: set<string> := {"latitude", "longitude", "telephone", "name", "address", "city",
                                  "site_web", "reseaux_sociaux", "rating", "review_count",
                                  "cuisine", "price_range"}

  /** `float(item.get(key, 0)) if item.get(key) else 0`. */
  function CoordOf(item: Record, key: string): (c: Coord)
    ensures c.FloatOf? <==> key in item && Truthy(item[key])
    ensures c.FloatOf? ==> c.raw == item[key]
  {
    if Truthy(Get(item, key, Null)) then FloatOf(item[key]) else Zero
  }

  /** The telephone, falling back to the default when it is absent or falsy. */
  function PhoneOf(item: Record): (p: Value)
    ensures Truthy(p)
    ensures "telephone" in item && Truthy(item["telephone"]) ==> p == item["telephone"]
    ensures !("telephone" in item && Truthy(item["telephone"])) ==> p == Str(DefaultPhone)
  {
    var phone := Get(item, "telephone", Str(DefaultPhone));
    if Truthy(phone) then phone else Str(DefaultPhone)
  }

  /** `parse_item` once the identifier has been drawn. */
  function BuildPayload(item: Record, id: string): Payload
  {
    Payload(
      Get(item, "name", Str(DefaultName)),
      id,
      Address(Get(item, "address", Str(DefaultAddressLine)), AddressLine2,
              Get(item, "city", Str(DefaultCity)), Country, Zip),
      Email,
      PhoneOf(item),
      Language,
      Coordinates(CoordOf(item, "latitude"), CoordOf(item, "longitude")),
      Get(item, "site_web", Null),
      Get(item, "reseaux_sociaux", StrList([])),
      Get(item, "rating", Null),
      Get(item, "review_count", Null),
      Get(item, "cuisine", Null),
      Get(item, "price_range", Null))
  }

  /** Every field read with `dict.get` takes the record's value when the key
      is present, whatever that value is, and the default only when the key
      is absent; the fixed fields hold their constants, and the telephone is
      always truthy. */
  lemma BuildPayloadFields(item: Record, id: string)
    ensures var p := BuildPayload(item, id);
      && p.companyRC == id
      && ("name" in item ==> p.companyName == item["name"])
      && ("name" !in item ==> p.companyName == Str(DefaultName))
      && ("address" in item ==> p.address.line == item["address"])
      && ("address" !in item ==> p.address.line == Str(DefaultAddressLine))
      && ("city" in item ==> p.address.city == item["city"])
      && ("city" !in item ==> p.address.city == Str(DefaultCity))
      && p.address.line2 == AddressLine2 && p.address.country == Country && p.address.zip == Zip
      && p.email == Email && p.language == Language
      && Truthy(p.phone)
      && ("reseaux_sociaux" in item ==> p.socialNetworks == item["reseaux_sociaux"])
      && ("reseaux_sociaux" !in item ==> p.socialNetworks == StrList([]))
      && ("site_web" in item ==> p.website == item["site_web"])
      && ("site_web" !in item ==> p.website == Null)
      && ("rating" in item ==> p.rating == item["rating"])
      && ("rating" !in item ==> p.rating == Null)
      && ("review_count" in item ==> p.reviewCount == item["review_count"])
      && ("review_count" !in item ==> p.reviewCount == Null)
      && ("cuisine" in item ==> p.cuisine == item["cuisine"])
      && ("cuisine" !in item ==> p.cuisine == Null)
      && ("price_range" in item ==> p.priceRange == item["price_range"])
      && ("price_range" !in item ==> p.priceRange == Null)
  {
  }

  /** `parse_item(item)`: draw the next identifier (which may raise on a
      corrupt counter file), then build the payload. */
  function ParseItem(item: Record, f: CounterFile): (r: Result<(Payload, CounterFile), AllocError>)
    ensures r.Success? <==> NextId(f).Success?
    ensures r.Success? ==> r.value.0 == BuildPayload(item, NextId(f).value.0)
    ensures r.Success? ==> r.value.1 == NextId(f).value.1
    ensures r.Failure? ==> r.error == NextId(f).error
  {
    match NextId(f)
    case Failure(e) => Failure(e)
    case Success(next) => Success((BuildPayload(item, next.0), next.1))
  }

  /** Two records agree on `key`: both lack it, or both hold the same value. */
  predicate Agree(a: Record, b: Record, key: string) {
    (key in a <==> key in b) && (key in a ==> a[key] == b[key])
  }

  /** The payload depends on nothing but the keys `parse_item` reads: any
      other key of the scraped record is dropped. */
  lemma BuildPayloadFrame(a: Record, b: Record, id: string)
    requires forall k :: k in ReadKeys ==> Agree(a, b, k)
    ensures BuildPayload(a, id) == BuildPayload(b, id)
  {
    assert Agree(a, b, "latitude") && Agree(a, b, "longitude") && Agree(a, b, "telephone");
    assert Agree(a, b, "name") && Agree(a, b, "address") && Agree(a, b, "city");
    assert Agree(a, b, "site_web") && Agree(a, b, "reseaux_sociaux") && Agree(a, b, "rating");
    assert Agree(a, b, "review_count") && Agree(a, b, "cuisine") && Agree(a, b, "price_range");
  }

  /** Two payloads of the same record differ only in their identifier, and
      they differ there exactly when the identifiers do. */
  lemma PayloadsDifferOnlyInId(item: Record, id1: string, id2: string)
    ensures BuildPayload(item, id1).(companyRC := id2) == BuildPayload(item, id2)
    ensures BuildPayload(item, id1) == BuildPayload(item, id2) <==> id1 == id2
  {
  }

  /** A record with nothing but a city label gets every default. */
  lemma CityOnlyRecordGetsDefaults(city: string, id: string)
    ensures BuildPayload(map["city" := Str(city)], id) ==
      Payload(Str(DefaultName), id,
              Address(Str(DefaultAddressLine), AddressLine2, Str(city), Country, Zip),
              Email, Str(DefaultPhone), Language, Coordinates(Zero, Zero),
              Null, StrList([]), Null, Null, Null, Null)
  {
  }

  /** A key present with the value `None` is passed through as `None`: the
      default applies only to a missing key. The telephone is the exception. */
  lemma PresentNullPassesThrough(item: Record, id: string)
    requires "name" in item && item["name"] == Null
    requires "reseaux_sociaux" in item && item["reseaux_sociaux"] == Null
    requires "telephone" in item && item["telephone"] == Null
    ensures BuildPayload(item, id).companyName == Null
    ensures BuildPayload(item, id).socialNetworks == Null
    ensures BuildPayload(item, id).phone == Str(DefaultPhone)
  {
  }
}

=== FILE: cards.dfy ===
/** `scrape_google_maps`, per result card: the record built from the texts
    and link a card shows.

    The browser and its selectors are not modelled: each card is given as the
    texts the selectors find on it. The reverse geocoder is a function from
    the two coordinate strings to an optional address. */
module Cards {
  import opened Wrappers
  import opened Text
  import opened Records

  /** What the selectors find on one card: the name, link, rating, review
      count and cuisine texts (`None` when the selector finds nothing), and
      the text of every `span`, in document order. */
  datatype Card = Card(
    nameText: Option<string>,
    href: Option<string>,
    ratingText: Option<string>,
    reviewText: Option<string>,
    spanTexts: seq<string>,
    cuisineText: Option<string>)

  const MapsPrefix := "https://www.google.com"
  const PricePrefix := "MAD"
  const SourceName := "googlemaps"

  /** The keys of a card record. */
  const CardKeys: set<string> := {"name", "url", "rating", "review_count", "cuisine", "price_range",
                                  "address", "latitude", "longitude", "source"}

  /** `str(el).strip() if el else None`: an empty text counts as missing. */
  function TextField(el: Option<string>): (v: Value)
    ensures v.Null? <==> el.None? || el.value == ""
    ensures v.Str? ==> v.s == Strip(el.value)
  {
    if el.Some? && el.value != "" then Str(Strip(el.value)) else Null
  }

  /** The review count: whitespace stripped, then surrounding parentheses. */
  function ReviewField(el: Option<string>): (v: Value)
    ensures v.Null? <==> el.None? || el.value == ""
    ensures v.Str? ==> v.s == StripChars(Strip(el.value), {'(', ')'})
  {
    if el.Some? && el.value != "" then Str(StripChars(Strip(el.value), {'(', ')'})) else Null
  }

  /** A span text that gives the price range: it starts with "MAD" once stripped. */
  predicate IsPriceText(t: string) {
    IsPrefix(PricePrefix, Strip(t))
  }

  /** The first element at or after `k` that satisfies `p`. */
  function FirstWhere<T>(xs: seq<T>, p: T -> bool, k: nat): (r: Option<nat>)
    requires k <= |xs|
    ensures r.Some? ==> k <= r.value < |xs| && p(xs[r.value])
    ensures r.Some? ==> forall j :: k <= j < r.value ==> !p(xs[j])
    ensures r.None? ==> forall j :: k <= j < |xs| ==> !p(xs[j])
    decreases |xs| - k
  {
    if k == |xs| then None
    else if p(xs[k]) then Some(k)
    else FirstWhere(xs, p, k + 1)
  }

  /** The price range: the stripped text of the first span starting with "MAD". */
  function PriceField(spans: seq<string>): Value {
    match FirstWhere(spans, IsPriceText, 0)
    case None => Null
    case Some(i) => Str(Strip(spans[i]))
  }

  /** The price range is the stripped text of the first span that starts
      with "MAD", and `None` exactly when no span does. */
  lemma PriceFieldIsFirstPriceSpan(spans: seq<string>, i: nat)
    requires i < |spans| && IsPriceText(spans[i])
    requires forall j :: 0 <= j < i ==> !IsPriceText(spans[j])
    ensures PriceField(spans) == Str(Strip(spans[i]))
  {
  }

  lemma PriceFieldNone(spans: seq<string>)
    ensures PriceField(spans).Null? <==> forall j :: 0 <= j < |spans| ==> !IsPriceText(spans[j])
  {
  }

  /** The character class `[-\d\.]` of the coordinate pattern (ASCII digits). */
  predicate CoordChar(c: char) {
    c == '-' || c == '.' || '0' <= c <= '9'
  }

  /** The longest run of coordinate characters starting at `k`. */
  function Run(s: string, k: nat): (r: string)
    requires k <= |s|
    ensures k + |r| <= |s| && r == s[k..k + |r|]
    ensures forall t :: 0 <= t < |r| ==> CoordChar(r[t])
    ensures k + |r| < |s| ==> !CoordChar(s[k + |r|])
    decreases |s| - k
  {
    if k < |s| && CoordChar(s[k]) then [s[k]] + Run(s, k + 1) else []
  }

  /** The pattern `!3d([-\d\.]+)!4d([-\d\.]+)` matched at position `i`: both
      groups are greedy, and since `!` is not in the class, backtracking can
      never help, so each group is the longest run. */
  function MatchAt(s: string, i: nat): Option<(string, string)>
    requires i <= |s|
  {
    if !IsPrefix("!3d", s[i..]) then None
    else
      var a := Run(s, i + 3);
      var j := i + 3 + |a|;
      if a == [] || !IsPrefix("!4d", s[j..]) then None
      else
        var b := Run(s, j + 3);
        if b == [] then None else Some((a, b))
  }

  /** A match spells out the pattern: both groups are non-empty runs of
      coordinate characters, framed by the literal markers. */
  lemma MatchAtShape(s: string, i: nat)
    requires i <= |s| && MatchAt(s, i).Some?
    ensures var (a, b) := MatchAt(s, i).value;
      && |a| > 0 && |b| > 0
      && (forall t :: 0 <= t < |a| ==> CoordChar(a[t]))
      && (forall t :: 0 <= t < |b| ==> CoordChar(b[t]))
      && IsPrefix("!3d" + a + "!4d" + b, s[i..])
  {
    var (a, b) := MatchAt(s, i).value;
    var j := i + 3 + |a|;
    var w := "!3d" + a + "!4d" + b;
    assert s[i..][..3] == "!3d" && s[j..][..3] == "!4d";
    assert s[i + 3..j] == a && s[j + 3..j + 3 + |b|] == b;
    forall t | 0 <= t < |w|
      ensures s[i..][t] == w[t]
    {
      if t < 3 {
        assert s[i..][t] == s[i..][..3][t];
      } else if t < 3 + |a| {
        assert w[t] == a[t - 3] == s[i + 3..j][t - 3];
      } else if t < 6 + |a| {
        assert w[t] == "!4d"[t - 3 - |a|] == s[j..][..3][t - 3 - |a|];
      } else {
        assert w[t] == b[t - 6 - |a|] == s[j + 3..j + 3 + |b|][t - 6 - |a|];
      }
    }
    assert s[i..][..|w|] == w;
  }

  /** `re.search`: the leftmost position at or after `i` where the pattern matches. */
  function Search(s: string, i: nat): (r: Option<nat>)
    requires i <= |s|
    ensures r.Some? ==> i <= r.value <= |s| && MatchAt(s, r.value).Some?
    ensures r.Some? ==> forall j :: i <= j < r.value ==> MatchAt(s, j).None?
    ensures r.None? ==> forall j :: i <= j <= |s| ==> MatchAt(s, j).None?
    decreases |s| - i
  {
    if MatchAt(s, i).Some? then Some(i)
    else if i == |s| then None
    else Search(s, i + 1)
  }

  /** The two coordinate groups of the card's URL, when the pattern occurs. */
  function UrlCoordinates(url: string): (r: Option<(string, string)>)
    ensures r.Some? ==> |r.value.0| > 0 && |r.value.1| > 0
  {
    match Search(url, 0)
    case None => None
    case Some(i) =>
      MatchAtShape(url, i);
      MatchAt(url, i)
  }

  /** The card's full URL, when it has a (non-empty) link. */
  function CardUrl(card: Card): Option<string> {
    if card.href.Some? && card.href.value != "" then Some(MapsPrefix + card.href.value) else None
  }

  /** The coordinates found in the card's URL. */
  function CardCoords(card: Card): (c: Option<(string, string)>)
    ensures c.Some? ==> CardUrl(card).Some?
    ensures c.Some? ==> |c.value.0| > 0 && |c.value.1| > 0
  {
    if CardUrl(card).Some? then UrlCoordinates(CardUrl(card).value) else None
  }

  /** The address: the geocoder's answer, asked only when coordinates exist. */
  function CardAddress(coords: Option<(string, string)>, geocode: (string, string) -> Option<string>): (v: Value)
    ensures !v.Null? ==> coords.Some?
  {
    if coords.Some? then
      match geocode(coords.value.0, coords.value.1)
      case None => Null
      case Some(a) => Str(a)
    else Null
  }

  /** The record layout of a card, with the source tag filled in. */
  function CardMap(name: Value, url: Value, rating: Value, reviewCount: Value, cuisine: Value,
                   priceRange: Value, address: Value, lat: Value, lng: Value): (r: Record)
    ensures r.Keys == CardKeys
    ensures r["name"] == name && r["url"] == url && r["rating"] == rating
    ensures r["review_count"] == reviewCount && r["cuisine"] == cuisine && r["price_range"] == priceRange
    ensures r["address"] == address && r["latitude"] == lat && r["longitude"] == lng
    ensures r["source"] == Str(SourceName)
  {
    map["name" := name, "url" := url, "rating" := rating, "review_count" := reviewCount,
        "cuisine" := cuisine, "price_range" := priceRange, "address" := address,
        "latitude" := lat, "longitude" := lng, "source" := Str(SourceName)]
  }

  /** The record for one card. `geocode(lat, lng)` is the reverse geocoder's
      answer, asked only when both coordinates were found. */
  function CardRecord(card: Card, geocode: (string, string) -> Option<string>): (r: Record)
    ensures r.Keys == CardKeys
    ensures r["source"] == Str(SourceName)
    ensures r["latitude"].Null? <==> r["longitude"].Null?
    ensures r["url"].Null? ==> r["latitude"].Null?
    ensures !r["address"].Null? ==> Truthy(r["latitude"]) && Truthy(r["longitude"])
    ensures r["name"] == TextField(card.nameText)
    ensures r["rating"] == TextField(card.ratingText)
    ensures r["cuisine"] == TextField(card.cuisineText)
    ensures r["review_count"] == ReviewField(card.reviewText)
    ensures r["price_range"] == PriceField(card.spanTexts)
    ensures card.href.Some? && card.href.value != "" ==> r["url"] == Str(MapsPrefix + card.href.value)
    ensures card.href.None? || card.href.value == "" ==> r["url"] == Null
    ensures r["latitude"].Null? ==> r["address"] == Null
    ensures r["latitude"].Str? && r["longitude"].Str? ==>
      var answer := geocode(r["latitude"].s, r["longitude"].s);
      && (answer.Some? ==> r["address"] == Str(answer.value))
      && (answer.None? ==> r["address"] == Null)
  {
    var url := CardUrl(card);
    var coords := CardCoords(card);
    CardMap(TextField(card.nameText),
            (if url.Some? then Str(url.value) else Null),
            TextField(card.ratingText),
            ReviewField(card.reviewText),
            TextField(card.cuisineText),
            PriceField(card.spanTexts),
            CardAddress(coords, geocode),
            (if coords.Some? then Str(coords.value.0) else Null),
            (if coords.Some? then Str(coords.value.1) else Null))
  }

  /** The coordinates of a card record are the two groups of the leftmost
      match in its URL, and both are `None`, with no address looked up, when
      there is no URL or no match. */
  lemma CardCoordinates(card: Card, geocode: (string, string) -> Option<string>)
    ensures var r := CardRecord(card, geocode);
      && (r["url"].Str? && Search(r["url"].s, 0).Some? ==>
            var m := MatchAt(r["url"].s, Search(r["url"].s, 0).value).value;
            r["latitude"] == Str(m.0) && r["longitude"] == Str(m.1))
      && (r["url"].Null? || (r["url"].Str? && Search(r["url"].s, 0).None?) ==>
            r["latitude"] == Null && r["longitude"] == Null && r["address"] == Null)
  {
  }

  /** The review count never keeps a surrounding parenthesis. */
  lemma ReviewCountBare(el: Option<string>)
    requires ReviewField(el).Str? && ReviewField(el).s != ""
    ensures var t := ReviewField(el).s; t[0] !in {'(', ')'} && t[|t| - 1] !in {'(', ')'}
  {
    StripCharsBare(Strip(el.value), {'(', ')'});
  }

  /** `scrape_google_maps`: one record per card, in card order. */
  function ScrapeGoogleMaps(cards: seq<Card>, geocode: (string, string) -> Option<string>): (rs: seq<Record>)
    ensures |rs| == |cards|
    ensures forall i :: 0 <= i < |cards| ==> rs[i] == CardRecord(cards[i], geocode)
  {
    seq(|cards|, i requires 0 <= i < |cards| => CardRecord(cards[i], geocode))
  }
}

=== FILE: decimal.dfy ===
/** Decimal text for integers: Python's `str(n)`, `f"{n:06d}"` and `int(s)`. */
module Decimal {
  import opened Wrappers

  predicate IsDigit(c: char) {
    '0' <= c <= '9'
  }

  predicate AllDigits(s: string) {
    forall k :: 0 <= k < |s| ==> IsDigit(s[k])
  }

  function DigitChar(d: nat): (c: char)
    requires d < 10
    ensures IsDigit(c)
  {
    ('0' as int + d) as char
  }

  function DigitValue(c: char): (d: nat)
    requires IsDigit(c)
    ensures d < 10
  {
    c as int - '0' as int
  }

  /** `str(n)` for a non-negative `n`: the shortest decimal spelling. */
  function NatToString(n: nat): (s: string)
    ensures |s| >= 1 && AllDigits(s)
    ensures |s| > 1 ==> s[0] != '0'
  {
    if n < 10 then [DigitChar(n)] else NatToString(n / 10) + [DigitChar(n % 10)]
  }

  /** The number a string of decimal digits denotes (leading zeros allowed). */
  function DigitsValue(s: string): nat
    requires AllDigits(s)
  {
    if |s| == 0 then 0 else DigitsValue(s[..|s| - 1]) * 10 + DigitValue(s[|s| - 1])
  }

  function Pow10(k: nat): (p: nat)
    ensures p >= 1
  {
    if k == 0 then 1 else 10 * Pow10(k - 1)
  }

  /** A number below `10^k` is spelled with at most `k` digits. */
  lemma {:induction false} NatToStringShort(n: nat, k: nat)
    requires k >= 1 && n < Pow10(k)
    ensures |NatToString(n)| <= k
  {
    if n >= 10 {
      assert k >= 2;
      NatToStringShort(n / 10, k - 1);
    }
  }

  /** Reading back the spelling of `n` gives `n`. */
  lemma {:induction false} NatToStringRoundTrip(n: nat)
    ensures DigitsValue(NatToString(n)) == n
  {
    if n >= 10 {
      var s := NatToString(n);
      NatToStringRoundTrip(n / 10);
      assert s[..|s| - 1] == NatToString(n / 10);
    }
  }

  function Zeros(k: nat): (z: string)
    ensures |z| == k && AllDigits(z)
  {
    seq(k, _ => '0')
  }

  /** Leading zeros do not change the value of a digit string. */
  lemma {:induction false} LeadingZerosValue(k: nat, s: string)
    requires AllDigits(s)
    ensures AllDigits(Zeros(k) + s)
    ensures DigitsValue(Zeros(k) + s) == DigitsValue(s)
    decreases |s|
  {
    var z := Zeros(k) + s;
    if |s| == 0 {
      assert z == Zeros(k);
      ZerosValue(k);
    } else {
      assert z[..|z| - 1] == Zeros(k) + s[..|s| - 1];
      LeadingZerosValue(k, s[..|s| - 1]);
    }
  }

  lemma {:induction false} ZerosValue(k: nat)
    ensures DigitsValue(Zeros(k)) == 0
  {
    if k > 0 {
      assert Zeros(k)[..k - 1] == Zeros(k - 1);
      ZerosValue(k - 1);
    }
  }

  /** `s` left-padded with zeros to at least `width` characters. */
  function PadZeros(s: string, width: nat): (r: string)
    requires AllDigits(s)
    ensures AllDigits(r)
    ensures |r| == if |s| >= width then |s| else width
    ensures DigitsValue(r) == DigitsValue(s)
  {
    if |s| >= width then s
    else LeadingZerosValue(width - |s|, s); Zeros(width - |s|) + s
  }

  /** `str(n)`. */
  function IntToString(n: int): string {
    if n < 0 then "-" + NatToString(-n) else NatToString(n)
  }

  /** `f"{n:06d}"`: zero-padded to a total width of six, the sign counting
      towards the width. */
  function Format06(n: int): (s: string)
    ensures |s| >= 6
  {
    if n >= 0 then PadZeros(NatToString(n), 6)
    else "-" + PadZeros(NatToString(-n), 5)
  }

  /** A number of at least `10^k` is spelled with more than `k` digits. */
  lemma {:induction false} NatToStringLong(n: nat, k: nat)
    requires n >= Pow10(k)
    ensures |NatToString(n)| > k
  {
    if k > 0 {
      assert n >= 10;
      assert n / 10 >= Pow10(k - 1);
      NatToStringLong(n / 10, k - 1);
    }
  }

  /** An identifier is exactly six characters wide exactly when the counter
      lies strictly between -100000 and a million; outside that range the
      digits (and the sign) overflow the width. */
  lemma Format06Width(n: int)
    ensures |Format06(n)| == 6 <==> -100000 < n < 1000000
  {
    assert Pow10(5) == 100000;
    assert Pow10(6) == 1000000;
    if n >= 0 {
      if n < 1000000 {
        NatToStringShort(n, 6);
      } else {
        NatToStringLong(n, 6);
      }
    } else {
      if -n < 100000 {
        NatToStringShort(-n, 5);
      } else {
        NatToStringLong(-n, 5);
      }
    }
  }

  /** `int(s)` on already-stripped text: an optional sign followed by one or
      more ASCII digits; anything else raises, modelled as `None`. */
  function ParseInt(s: string): Option<int> {
    if |s| > 0 && (s[0] == '-' || s[0] == '+') then
      if |s| > 1 && AllDigits(s[1..]) then
        var v: int := DigitsValue(s[1..]);
        Some(if s[0] == '-' then -v else v)
      else None
    else if |s| > 0 && AllDigits(s) then Some(DigitsValue(s))
    else None
  }

  /** `int` reads a non-empty run of digits as the number it denotes. */
  lemma ParseUnsigned(body: string)
    requires |body| > 0 && AllDigits(body)
    ensures ParseInt(body) == Some(DigitsValue(body))
  {
    assert IsDigit(body[0]);
  }

  /** `int` reads a minus sign followed by a non-empty run of digits as the
      negated number. */
  lemma ParseNegative(body: string, v: nat)
    requires |body| > 0 && AllDigits(body) && DigitsValue(body) == v
    ensures ParseInt("-" + body) == Some(-(v as int))
  {
    assert ("-" + body)[1..] == body;
  }

  /** The spelling of a negative number is a minus sign before the spelling
      of its magnitude. */
  lemma NegativeSpelling(n: int)
    requires n < 0
    ensures IntToString(n) == "-" + NatToString(-n)
    ensures Format06(n) == "-" + PadZeros(NatToString(-n), 5)
  {
  }

  /** Padding keeps the value of a spelling. */
  lemma PaddedValue(n: nat, width: nat)
    ensures DigitsValue(NatToString(n)) == n
    ensures DigitsValue(PadZeros(NatToString(n), width)) == n
  {
    NatToStringRoundTrip(n);
  }

  /** `int(str(n)) == n`. */
  lemma ParseIntToString(n: int)
    ensures ParseInt(IntToString(n)) == Some(n)
  {
    PaddedValue(if n < 0 then -n else n, 0);
    if n < 0 {
      NegativeSpelling(n);
      ParseNegative(NatToString(-n), -n);
    } else {
      ParseUnsigned(NatToString(n));
    }
  }

  /** A padded identifier is digits, after a minus sign when negative. */
  lemma Format06Shape(n: int)
    ensures n >= 0 ==> AllDigits(Format06(n))
    ensures n < 0 ==> Format06(n)[0] == '-' && AllDigits(Format06(n)[1..])
  {
    if n < 0 {
      assert Format06(n)[1..] == PadZeros(NatToString(-n), 5);
    }
  }

  /** `int(f"{n:06d}") == n`: the padded spelling is still a faithful one. */
  lemma ParseFormat06(n: int)
    ensures ParseInt(Format06(n)) == Some(n)
  {
    if n < 0 {
      PaddedValue(-n, 5);
      NegativeSpelling(n);
      ParseNegative(PadZeros(NatToString(-n), 5), -n);
    } else {
      PaddedValue(n, 6);
      ParseUnsigned(PadZeros(NatToString(n), 6));
    }
  }

  /** Distinct numbers get distinct six-digit identifiers. */
  lemma Format06Injective(a: int, b: int)
    requires a != b
    ensures Format06(a) != Format06(b)
  {
    ParseFormat06(a);
    ParseFormat06(b);
  }

  /** The identifier of a non-negative number reads back, as digits, to it. */
  lemma Format06Value(n: nat)
    ensures AllDigits(Format06(n)) && DigitsValue(Format06(n)) == n
  {
    NatToStringRoundTrip(n);
  }

  /** No spelling produced by `str` starts or ends with whitespace-like
      characters: its first character is a sign or a digit, its last a digit. */
  lemma IntToStringEnds(n: int)
    ensures |IntToString(n)| > 0
    ensures IntToString(n)[0] == '-' || IsDigit(IntToString(n)[0])
    ensures IsDigit(IntToString(n)[|IntToString(n)| - 1])
  {
  }
}

=== FILE: enrichment.dfy ===
/** `enrich_restaurant_info`: complete a scraped restaurant with a telephone,
    a web site and its social links, read from a search results page.

    The browser is not modelled: what the page yields is given as data
    (`Page`), and the fetch is a function from the search URL to either a
    page or a failure (any exception raised while fetching or reading it). */
module Enrichment {
  import opened Wrappers
  import opened Text
  import opened Records

  /** What the search results page yields: the first telephone number the
      phone pattern matches, the first official-site link, and the `href`
      of every link in document order (`None` for a missing attribute). */
  datatype Page = Page(phone: Option<string>, site: Option<string>, hrefs: seq<Option<string>>)

  datatype Fetch = Fetched(page: Page) | FetchFailed

  /** The result of one call: the record, or an exception that escaped. */
  datatype Outcome = Enriched(r: Record) | Raised

  const SearchPrefix := "https://www.google.com/search?q="

  /** The three keys the enrichment writes. */
  const EnrichKeys: set<string> := {"telephone", "site_web", "reseaux_sociaux"}

  /** The URL searched for a restaurant name: spaces become `+`. */
  function SearchUrl(name: string): (url: string)
    ensures IsPrefix(SearchPrefix, url)
  {
    SearchPrefix + ReplaceAll(name, " ", "+")
  }

  /** `any(domain in href for domain in social_domains)`. */
  predicate HasSocialDomain(href: string) {
    Contains(href, "facebook.com") || Contains(href, "instagram.com") || Contains(href, "twitter.com")
    || Contains(href, "linkedin.com") || Contains(href, "youtube.com")
  }

  predicate IsSocialLink(href: Option<string>) {
    href.Some? && href.value != "" && HasSocialDomain(href.value)
  }

  /** The links kept by the social filter, in document order. */
  function KeepSocials(hrefs: seq<Option<string>>): (kept: seq<string>)
    ensures forall i :: 0 <= i < |kept| ==> kept[i] != "" && HasSocialDomain(kept[i])
    ensures forall i :: 0 <= i < |kept| ==> Some(kept[i]) in hrefs
    ensures forall i :: 0 <= i < |hrefs| && IsSocialLink(hrefs[i]) ==> hrefs[i].value in kept
  {
    if hrefs == [] then []
    else
      var rest := KeepSocials(hrefs[1..]);
      assert forall i :: 1 <= i < |hrefs| ==> hrefs[i] == hrefs[1..][i - 1];
      if IsSocialLink(hrefs[0]) then [hrefs[0].value] + rest else rest
  }

  /** A single link is kept exactly when it is a non-empty social link. */
  lemma KeepSocialsOne(h: Option<string>)
    ensures KeepSocials([h]) == if IsSocialLink(h) then [h.value] else []
  {
    assert [h][1..] == [];
  }

  /** The filter works link by link: filtering a page split in two is
      filtering each part, so the kept links keep their document order and
      their repeats. */
  lemma {:induction false} KeepSocialsAppend(a: seq<Option<string>>, b: seq<Option<string>>)
    ensures KeepSocials(a + b) == KeepSocials(a) + KeepSocials(b)
    decreases |a|
  {
    if a == [] {
      assert a + b == b;
    } else {
      assert (a + b)[0] == a[0];
      assert (a + b)[1..] == a[1..] + b;
      KeepSocialsAppend(a[1..], b);
    }
  }

  predicate NoDuplicates<T(==)>(xs: seq<T>) {
    forall i, j :: 0 <= i < j < |xs| ==> xs[i] != xs[j]
  }

  /** `list(dict.fromkeys(xs))`: every element once, at its first occurrence. */
  function Dedup<T(==)>(xs: seq<T>): (d: seq<T>)
    ensures NoDuplicates(d)
    ensures forall i :: 0 <= i < |d| ==> d[i] in xs
    ensures forall i :: 0 <= i < |xs| ==> xs[i] in d
    ensures |d| <= |xs|
  {
    if xs == [] then []
    else
      var d := Dedup(xs[..|xs| - 1]);
      var last := xs[|xs| - 1];
      assert xs == xs[..|xs| - 1] + [last];
      if last in d then d else d + [last]
  }

  /** The position of the first occurrence of `x` in `xs`. */
  function FirstIndex<T(==)>(xs: seq<T>, x: T): (i: nat)
    requires x in xs
    ensures i < |xs| && xs[i] == x && x !in xs[..i]
  {
    if xs[0] == x then 0 else 1 + FirstIndex(xs[1..], x)
  }

  /** The first occurrence of an element of a prefix is inside the prefix. */
  lemma {:induction false} FirstIndexPrefix<T>(xs: seq<T>, k: nat, x: T)
    requires k <= |xs| && x in xs[..k]
    ensures FirstIndex(xs, x) == FirstIndex(xs[..k], x)
  {
    if xs[0] != x {
      assert xs[1..][..k - 1] == xs[..k][1..];
      FirstIndexPrefix(xs[1..], k - 1, x);
    }
  }

  /** Elements of the prefix without the last element first occur inside it. */
  lemma FirstIndexesInPrefix<T>(xs: seq<T>, d: seq<T>)
    requires |xs| > 0
    requires forall i :: 0 <= i < |d| ==> d[i] in xs[..|xs| - 1]
    ensures forall i :: 0 <= i < |d| ==>
      d[i] in xs && FirstIndex(xs, d[i]) == FirstIndex(xs[..|xs| - 1], d[i]) < |xs| - 1
  {
    forall i | 0 <= i < |d|
      ensures d[i] in xs && FirstIndex(xs, d[i]) == FirstIndex(xs[..|xs| - 1], d[i]) < |xs| - 1
    {
      FirstIndexPrefix(xs, |xs| - 1, d[i]);
    }
  }

  /** A last element that does not occur earlier first occurs at the end. */
  lemma FirstIndexOfNewLast<T>(xs: seq<T>)
    requires |xs| > 0 && xs[|xs| - 1] !in xs[..|xs| - 1]
    ensures FirstIndex(xs, xs[|xs| - 1]) == |xs| - 1
  {
  }

  /** Deduplication keeps the order of first occurrences: an element listed
      earlier first occurred earlier. */
  lemma {:induction false} DedupKeepsFirstOccurrenceOrder<T>(xs: seq<T>)
    ensures forall i, j :: 0 <= i < j < |Dedup(xs)| ==>
      FirstIndex(xs, Dedup(xs)[i]) < FirstIndex(xs, Dedup(xs)[j])
    decreases |xs|
  {
    if xs != [] {
      var pre := xs[..|xs| - 1];
      var last := xs[|xs| - 1];
      var d := Dedup(pre);
      DedupKeepsFirstOccurrenceOrder(pre);
      FirstIndexesInPrefix(xs, d);
      var dd := Dedup(xs);
      assert dd == if last in d then d else d + [last];
      if last !in d {
        assert last !in pre;
        FirstIndexOfNewLast(xs);
      }
      forall i, j | 0 <= i < j < |dd|
        ensures FirstIndex(xs, dd[i]) < FirstIndex(xs, dd[j])
      {
        assert dd[i] == d[i];
        if j < |d| {
          assert dd[j] == d[j];
        }
      }
    }
  }

  /** The value of an optional string in a record. */
  function OptStr(o: Option<string>): Value {
    if o.Some? then Str(o.value) else Null
  }

  /** The three values read from a search: telephone, web site and social links. */
  datatype Found = Found(telephone: Value, site: Value, socials: Value)

  /** What a search yields: the page's values, or `None`, `None`, `[]` when
      fetching or reading the page failed. */
  function FoundOn(f: Fetch): (v: Found)
    ensures f.FetchFailed? ==> v == Found(Null, Null, StrList([]))
    ensures f.Fetched? ==> v.telephone == OptStr(f.page.phone) && v.site == OptStr(f.page.site)
    ensures f.Fetched? ==> v.socials == StrList(Dedup(KeepSocials(f.page.hrefs)))
  {
    match f
    case FetchFailed => Found(Null, Null, StrList([]))
    case Fetched(page) => Found(OptStr(page.phone), OptStr(page.site), StrList(Dedup(KeepSocials(page.hrefs))))
  }

  /** Write the three enrichment keys into a record. */
  function WriteFound(r: Record, v: Found): (w: Record)
    ensures w.Keys == r.Keys + EnrichKeys
    ensures forall k :: k in r && k !in EnrichKeys ==> w[k] == r[k]
    ensures w["telephone"] == v.telephone && w["site_web"] == v.site && w["reseaux_sociaux"] == v.socials
  {
    r["telephone" := v.telephone]["site_web" := v.site]["reseaux_sociaux" := v.socials]
  }

  /** Writing the same values twice is writing them once. */
  lemma WriteFoundTwice(r: Record, v: Found)
    ensures WriteFound(WriteFound(r, v), v) == WriteFound(r, v)
  {
    var w := WriteFound(r, v);
    var ww := WriteFound(w, v);
    forall k | k in ww
      ensures k in w && ww[k] == w[k]
    {
      if k !in EnrichKeys {
        assert ww[k] == w[k];
      }
    }
    assert ww.Keys == w.Keys;
  }

  /** `enrich_restaurant_info(restaurant)`. A record with a falsy name comes
      back unchanged; a truthy name that is not a string makes the name's
      `replace` raise; otherwise the search page is fetched and the three
      enrichment keys are written. */
  function EnrichRestaurantInfo(r: Record, fetch: string -> Fetch): (o: Outcome)
    ensures !Truthy(Get(r, "name", Null)) ==> o == Enriched(r)
    ensures o.Raised? <==> Truthy(Get(r, "name", Null)) && !r["name"].Str?
  {
    var name := Get(r, "name", Null);
    if !Truthy(name) then Enriched(r)
    else if !name.Str? then Raised
    else Enriched(WriteFound(r, FoundOn(fetch(SearchUrl(name.s)))))
  }

  /** When a record is enriched, its other keys are kept and the three
      enrichment keys hold the page's values, or `None`, `None`, `[]` when
      fetching failed. */
  lemma EnrichEffect(r: Record, fetch: string -> Fetch)
    requires EnrichRestaurantInfo(r, fetch).Enriched? && Truthy(Get(r, "name", Null))
    ensures var o := EnrichRestaurantInfo(r, fetch).r;
      && o.Keys == r.Keys + EnrichKeys
      && (forall k :: k in r && k !in EnrichKeys ==> o[k] == r[k])
      && (fetch(SearchUrl(r["name"].s)).FetchFailed? ==>
            o["telephone"] == Null && o["site_web"] == Null && o["reseaux_sociaux"] == StrList([]))
      && (fetch(SearchUrl(r["name"].s)).Fetched? ==>
            var page := fetch(SearchUrl(r["name"].s)).page;
            && o["telephone"] == OptStr(page.phone)
            && o["site_web"] == OptStr(page.site)
            && o["reseaux_sociaux"] == StrList(Dedup(KeepSocials(page.hrefs))))
  {
  }

  /** The social links written on success are distinct, non-empty, carry a
      social domain, and are exactly the page's social links. */
  lemma EnrichedSocials(r: Record, fetch: string -> Fetch)
    requires EnrichRestaurantInfo(r, fetch).Enriched? && Truthy(Get(r, "name", Null))
    requires fetch(SearchUrl(r["name"].s)).Fetched?
    ensures var links := EnrichRestaurantInfo(r, fetch).r["reseaux_sociaux"];
      && links.StrList?
      && NoDuplicates(links.items)
      && (forall i :: 0 <= i < |links.items| ==> links.items[i] != "" && HasSocialDomain(links.items[i]))
      && (forall h :: h in links.items <==> h in KeepSocials(fetch(SearchUrl(r["name"].s)).page.hrefs))
  {
    EnrichEffect(r, fetch);
  }

  /** Enriching an enriched record again, against the same pages, changes
      nothing: the name that selects the page is not among the written keys. */
  lemma EnrichIdempotent(r: Record, fetch: string -> Fetch)
    requires EnrichRestaurantInfo(r, fetch).Enriched?
    ensures EnrichRestaurantInfo(EnrichRestaurantInfo(r, fetch).r, fetch) == EnrichRestaurantInfo(r, fetch)
  {
    var name := Get(r, "name", Null);
    if Truthy(name) {
      var v := FoundOn(fetch(SearchUrl(name.s)));
      var o := WriteFound(r, v);
      assert "name" !in EnrichKeys;
      assert Get(o, "name", Null) == name;
      WriteFoundTwice(r, v);
    }
  }

  /** What the parallel enricher keeps for one record: the enriched record,
      or the record as it was when its enrichment raised. */
  function EnrichOrKeep(r: Record, fetch: string -> Fetch): (x: Record)
    ensures EnrichRestaurantInfo(r, fetch).Raised? ==> x == r
    ensures EnrichRestaurantInfo(r, fetch).Enriched? ==> x == EnrichRestaurantInfo(r, fetch).r
  {
    match EnrichRestaurantInfo(r, fetch)
    case Raised => r
    case Enriched(e) => e
  }
}

=== FILE: googlemaps.dfy ===
/** `scrape` for Google Maps: build one record per card, then enrich the
    records either one after the other or on a thread pool. */
module GoogleMaps {
  import opened Wrappers
  import opened Records
  import opened Enrichment
  import opened Cards

  datatype ScrapeError =
    | EnrichRaised(index: nat)     // the sequential enricher let an exception escape
    | BadWorkerCount(workers: int) // the thread pool refuses a non-positive size

  /** What the parallel enricher keeps for each record, in input order. */
  function KeptAll(rs: seq<Record>, fetch: string -> Fetch): (ks: seq<Record>)
    ensures |ks| == |rs|
    ensures forall i :: 0 <= i < |rs| ==> ks[i] == EnrichOrKeep(rs[i], fetch)
  {
    seq(|rs|, i requires 0 <= i < |rs| => EnrichOrKeep(rs[i], fetch))
  }

  lemma KeptAllSplit(rs: seq<Record>, j: nat, fetch: string -> Fetch)
    requires j < |rs|
    ensures KeptAll(rs, fetch) == KeptAll(rs[..j], fetch) + [EnrichOrKeep(rs[j], fetch)] + KeptAll(rs[j + 1..], fetch)
  {
    var l := KeptAll(rs[..j], fetch) + [EnrichOrKeep(rs[j], fetch)] + KeptAll(rs[j + 1..], fetch);
    forall i | 0 <= i < |rs|
      ensures KeptAll(rs, fetch)[i] == l[i]
    {
      if i < j {
        assert rs[..j][i] == rs[i];
      } else if i > j {
        assert rs[j + 1..][i - j - 1] == rs[i];
      }
    }
  }

  lemma KeptAllJoin(a: seq<Record>, b: seq<Record>, fetch: string -> Fetch)
    ensures KeptAll(a + b, fetch) == KeptAll(a, fetch) + KeptAll(b, fetch)
  {
    var l := KeptAll(a, fetch) + KeptAll(b, fetch);
    forall i | 0 <= i < |a| + |b|
      ensures KeptAll(a + b, fetch)[i] == l[i]
    {
      if i >= |a| {
        assert (a + b)[i] == b[i - |a|];
      }
    }
  }

  /** The sequential branch of `scrape`: enrich each record in order; the
      first exception escapes. */
  function EnrichSequential(rs: seq<Record>, fetch: string -> Fetch): (r: Result<seq<Record>, ScrapeError>)
    ensures r.Success? <==> forall i :: 0 <= i < |rs| ==> EnrichRestaurantInfo(rs[i], fetch).Enriched?
    ensures r.Success? ==>
      && |r.value| == |rs|
      && forall i :: 0 <= i < |rs| ==> r.value[i] == EnrichRestaurantInfo(rs[i], fetch).r
    ensures r.Failure? ==>
      && r.error.EnrichRaised?
      && r.error.index < |rs| && EnrichRestaurantInfo(rs[r.error.index], fetch).Raised?
      && forall i :: 0 <= i < r.error.index ==> EnrichRestaurantInfo(rs[i], fetch).Enriched?
    decreases |rs|
  {
    if rs == [] then Success([])
    else
      match EnrichRestaurantInfo(rs[0], fetch)
      case Raised => Failure(EnrichRaised(0))
      case Enriched(e) =>
        var rest := EnrichSequential(rs[1..], fetch);
        assert forall i :: 1 <= i < |rs| ==> rs[i] == rs[1..][i - 1];
        match rest
        case Failure(err) => Failure(EnrichRaised(err.index + 1))
        case Success(es) => Success([e] + es)
  }

  /** When no enrichment raises, keeping and enriching agree, so the
      sequential result is the parallel enricher's per-record result. */
  lemma SequentialIsKeptAll(rs: seq<Record>, fetch: string -> Fetch)
    requires EnrichSequential(rs, fetch).Success?
    ensures EnrichSequential(rs, fetch).value == KeptAll(rs, fetch)
  {
  }

  /** `enrich_restaurants_parallel(restaurants, max_workers)`: one result per
      record in completion order, the record itself when its enrichment
      raised. Completion order is the scheduler's choice, so it is left
      open here: each step takes any unfinished record. */
  method EnrichParallel(rs: seq<Record>, maxWorkers: int, fetch: string -> Fetch)
    returns (r: Result<seq<Record>, ScrapeError>)
    ensures maxWorkers <= 0 <==> r.Failure?
    ensures r.Failure? ==> r.error == BadWorkerCount(maxWorkers)
    ensures r.Success? ==> |r.value| == |rs| && multiset(r.value) == multiset(KeptAll(rs, fetch))
  {
    if maxWorkers <= 0 {
      return Failure(BadWorkerCount(maxWorkers));
    }
    var done: seq<Record> := [];
    var pending := rs;
    while pending != []
      invariant |done| + |pending| == |rs|
      invariant multiset(done) + multiset(KeptAll(pending, fetch)) == multiset(KeptAll(rs, fetch))
      decreases |pending|
    {
      var j :| 0 <= j < |pending|;
      KeptAllSplit(pending, j, fetch);
      KeptAllJoin(pending[..j], pending[j + 1..], fetch);
      done := done + [EnrichOrKeep(pending[j], fetch)];
      pending := pending[..j] + pending[j + 1..];
    }
    return Success(done);
  }

  /** `scrape(url, use_parallel, max_workers)`, with the page's cards given. */
  method Scrape(cards: seq<Card>, useParallel: bool, maxWorkers: int,
                geocode: (string, string) -> Option<string>, fetch: string -> Fetch)
    returns (r: Result<seq<Record>, ScrapeError>)
    ensures !useParallel ==> r == EnrichSequential(ScrapeGoogleMaps(cards, geocode), fetch)
    ensures useParallel && r.Success? ==>
      && |r.value| == |cards|
      && multiset(r.value) == multiset(KeptAll(ScrapeGoogleMaps(cards, geocode), fetch))
    ensures useParallel ==> (r.Failure? <==> maxWorkers <= 0)
  {
    var restaurants := ScrapeGoogleMaps(cards, geocode);
    if useParallel {
      r := EnrichParallel(restaurants, maxWorkers, fetch);
    } else {
      r := EnrichSequential(restaurants, fetch);
    }
  }
}

=== FILE: orchestrator.dfy ===
/** `main.py`: run every configured source, once per city when its URL is a
    template, hand each batch to `process_city_results`, and close the Kafka
    sender at the end whatever happened.

    Loading the configuration, loading the adapter module and running it are
    not modelled: the sources and cities are parameters, whether an adapter's
    `scrape` declares `use_parallel` is a function of its name, and what a
    scrape returns (or whether it raises) is a function of the unit's
    position in the run and its call, so repeating a call may give a
    different outcome. */
module Orchestrator {
  import opened Wrappers
  import opened Text
  import opened Records
  import opened Allocator
  import opened Canonical
  import opened Sender
  import opened Batch

  const Placeholder := "{param}"
  const UnknownCity := "unknown_city"

  datatype Source = Source(scraper: string, url: string)

  /** The command-line switches `--parallel` and `--workers`. */
  datatype Options = Options(useParallel: bool, maxWorkers: int)

  /** One unit of work: the adapter, the URL it scrapes, the label the batch
      is processed under, and the keyword arguments passed (if any). */
  datatype Call = Call(scraper: string, url: string, unitLabel: string, options: Option<Options>)

  predicate Templated(src: Source) {
    Contains(src.url, Placeholder)
  }

  /** The keyword arguments go along only when the adapter accepts them. */
  function OptionsFor(scraper: string, declaresParallel: string -> bool, opts: Options): (o: Option<Options>)
    ensures o.Some? <==> declaresParallel(scraper)
    ensures o.Some? ==> o.value == opts
  {
    if declaresParallel(scraper) then Some(opts) else None
  }

  /** The units of one source, in city order. */
  function SourceCalls(src: Source, villes: seq<string>, declaresParallel: string -> bool, opts: Options): (cs: seq<Call>)
    ensures Templated(src) ==> |cs| == |villes|
    ensures !Templated(src) ==> |cs| == 1
    ensures forall i :: 0 <= i < |cs| ==>
      && cs[i].scraper == src.scraper
      && cs[i].options == OptionsFor(src.scraper, declaresParallel, opts)
    ensures Templated(src) ==> forall i :: 0 <= i < |villes| ==>
      cs[i].unitLabel == villes[i] && cs[i].url == ReplaceAll(src.url, Placeholder, villes[i])
    ensures !Templated(src) ==> cs[0].unitLabel == UnknownCity && cs[0].url == src.url
  {
    var o := OptionsFor(src.scraper, declaresParallel, opts);
    if Templated(src) then
      seq(|villes|, i requires 0 <= i < |villes| => Call(src.scraper, ReplaceAll(src.url, Placeholder, villes[i]), villes[i], o))
    else [Call(src.scraper, src.url, UnknownCity, o)]
  }

  /** All units, source by source in configuration order. */
  function Plan(sources: seq<Source>, villes: seq<string>, declaresParallel: string -> bool, opts: Options): (cs: seq<Call>)
    ensures |cs| == UnitCount(sources, |villes|)
    decreases |sources|
  {
    if sources == [] then []
    else SourceCalls(sources[0], villes, declaresParallel, opts) + Plan(sources[1..], villes, declaresParallel, opts)
  }

  /** The number of units: the number of cities for a templated source, one
      for any other. */
  function UnitCount(sources: seq<Source>, cities: nat): nat
    decreases |sources|
  {
    if sources == [] then 0
    else (if Templated(sources[0]) then cities else 1) + UnitCount(sources[1..], cities)
  }

  /** The plan of a configuration extended by one source is the old plan
      followed by the new source's units. */
  lemma {:induction false} PlanAppend(sources: seq<Source>, src: Source, villes: seq<string>,
                                      declaresParallel: string -> bool, opts: Options)
    ensures Plan(sources + [src], villes, declaresParallel, opts)
      == Plan(sources, villes, declaresParallel, opts) + SourceCalls(src, villes, declaresParallel, opts)
    decreases |sources|
  {
    if sources == [] {
      assert [src][1..] == [];
    } else {
      assert (sources + [src])[1..] == sources[1..] + [src];
      PlanAppend(sources[1..], src, villes, declaresParallel, opts);
    }
  }

  /** A templated URL is filled in by replacing every placeholder with the
      city: cutting the template at its placeholders gives pieces that hold
      none, the city joins the pieces, and the placeholder joins them back
      into the template. */
  lemma TemplatedUrl(template: string, city: string)
    ensures ReplaceAll(template, Placeholder, city) == Join(Split(template, Placeholder), city)
    ensures Join(Split(template, Placeholder), Placeholder) == template
    ensures forall k :: 0 <= k < |Split(template, Placeholder)| ==> !Contains(Split(template, Placeholder)[k], Placeholder)
  {
    ReplaceIsJoinOfSplit(template, Placeholder, city);
    SplitJoinRoundTrip(template, Placeholder);
    SplitPiecesAreFree(template, Placeholder);
  }

  /** What one unit hands on to the next: the counter file and the Kafka
      sender state. */
  datatype RunState = RunState(file: CounterFile, sink: SinkState<Payload>)

  /** What happens to the state when unit `u` processes the records its
      scrape returned under its label: the new state, or `None` when the
      processing raises. */
  type UnitRun = (nat, seq<Record>, string, RunState) -> Option<RunState>

  /** The broker's behaviour for the payloads of unit `u`, from a behaviour
      indexed by unit and payload. */
  function ForUnit(outcome: (nat, nat) -> bool, u: nat): nat -> bool {
    (i: nat) => outcome(u, i)
  }

  /** Unit `u` of the plan scraped at least one record. */
  predicate Produced(plan: seq<Call>, scrapeResult: (nat, Call) -> Option<seq<Record>>, u: nat)
    requires u < |plan|
  {
    scrapeResult(u, plan[u]).Some? && scrapeResult(u, plan[u]).value != []
  }

  /** `process_city_results` for unit `u` on the records its scrape returned,
      as a state change: `None` when drawing an identifier raises. An empty
      batch changes nothing; otherwise the identifiers are drawn and every
      payload is published in order. */
  function UnitStep(u: nat, items: seq<Record>, city: string, s: RunState,
                    connectOk: (nat, nat) -> bool, acked: (nat, nat) -> bool): Option<RunState>
  {
    if items == [] then Some(s)
    else
      match AllocateMany(s.file, |items|)
      case Failure(_) => None
      case Success(drawn) =>
        var ps := BatchPayloads(items, city, drawn.0);
        Some(RunState(drawn.1, SendAll(s.sink, Attempts(ps, ForUnit(connectOk, u), ForUnit(acked, u))).0))
  }

  /** `UnitStep` under a given broker behaviour. */
  function Batches(connectOk: (nat, nat) -> bool, acked: (nat, nat) -> bool): UnitRun {
    (u: nat, items: seq<Record>, city: string, s: RunState) => UnitStep(u, items, city, s, connectOk, acked)
  }

  /** The state after the first `n` units of the plan have all completed, or
      `None` when one of them raises in its scrape or in its processing. */
  function RunUnits(plan: seq<Call>, scrapeResult: (nat, Call) -> Option<seq<Record>>, process: UnitRun,
                    start: RunState, n: nat): Option<RunState>
    requires n <= |plan|
    decreases n
  {
    if n == 0 then Some(start)
    else
      match RunUnits(plan, scrapeResult, process, start, n - 1)
      case None => None
      case Some(s) =>
        match scrapeResult(n - 1, plan[n - 1])
        case None => None
        case Some(items) => process(n - 1, items, plan[n - 1].unitLabel, s)
  }

  /** An exception ends the loop for good: no later unit runs. */
  lemma {:induction false} RunUnitsStopsForGood(plan: seq<Call>, scrapeResult: (nat, Call) -> Option<seq<Record>>,
                                                process: UnitRun, start: RunState, n: nat, m: nat)
    requires n <= m <= |plan|
    requires RunUnits(plan, scrapeResult, process, start, n).None?
    ensures RunUnits(plan, scrapeResult, process, start, m).None?
    decreases m
  {
    if m > n {
      RunUnitsStopsForGood(plan, scrapeResult, process, start, n, m - 1);
    }
  }

  /** When `n` units complete, so do the first `n - 1`, unit `n - 1`'s
      scrape returned, and it was processed on the state they left. */
  lemma RunUnitsLast(plan: seq<Call>, scrapeResult: (nat, Call) -> Option<seq<Record>>,
                     process: UnitRun, start: RunState, n: nat)
    requires 0 < n <= |plan|
    requires RunUnits(plan, scrapeResult, process, start, n).Some?
    ensures RunUnits(plan, scrapeResult, process, start, n - 1).Some?
    ensures scrapeResult(n - 1, plan[n - 1]).Some?
    ensures RunUnits(plan, scrapeResult, process, start, n)
      == process(n - 1, scrapeResult(n - 1, plan[n - 1]).value, plan[n - 1].unitLabel,
                 RunUnits(plan, scrapeResult, process, start, n - 1).value)
  {
  }

  /** Every unit that completes had a scrape that returned. */
  lemma {:induction false} RunUnitsScraped(plan: seq<Call>, scrapeResult: (nat, Call) -> Option<seq<Record>>,
                                           process: UnitRun, start: RunState, n: nat)
    requires n <= |plan|
    requires RunUnits(plan, scrapeResult, process, start, n).Some?
    ensures forall u :: 0 <= u < n ==> scrapeResult(u, plan[u]).Some?
    decreases n
  {
    if n > 0 {
      RunUnitsLast(plan, scrapeResult, process, start, n);
      RunUnitsScraped(plan, scrapeResult, process, start, n - 1);
    }
  }

  /** Processing a unit only adds acknowledged messages. */
  ghost predicate KeepsMessages(process: UnitRun) {
    forall u: nat, items: seq<Record>, city: string, s: RunState :: process(u, items, city, s).Some? ==>
      Messages(s.sink.log) <= Messages(process(u, items, city, s).value.sink.log)
  }

  /** Processing a unit keeps an existing sender, and processing records
      leaves one behind. */
  ghost predicate KeepsSender(process: UnitRun) {
    forall u: nat, items: seq<Record>, city: string, s: RunState :: process(u, items, city, s).Some? ==>
      && (s.sink.global.Some? ==> process(u, items, city, s).value.sink.global == s.sink.global)
      && (items != [] ==> process(u, items, city, s).value.sink.global.Some?)
  }

  /** A unit without records changes nothing. */
  ghost predicate SkipsEmpty(process: UnitRun) {
    forall u: nat, city: string, s: RunState :: process(u, [], city, s) == Some(s)
  }

  /** On a corrupt counter file, processing records raises. */
  ghost predicate RaisesOnCorrupt(process: UnitRun) {
    forall u: nat, items: seq<Record>, city: string, s: RunState :: s.file.Corrupt? && items != [] ==> process(u, items, city, s).None?
  }

  /** One processed unit only adds acknowledged messages and keeps an
      existing sender; a unit with records leaves a sender behind, and a
      unit without records changes nothing. */
  lemma UnitStepEffect(u: nat, items: seq<Record>, city: string, s: RunState,
                       connectOk: (nat, nat) -> bool, acked: (nat, nat) -> bool)
    requires UnitStep(u, items, city, s, connectOk, acked).Some?
    ensures var s' := UnitStep(u, items, city, s, connectOk, acked).value;
      && Messages(s.sink.log) <= Messages(s'.sink.log)
      && (s.sink.global.Some? ==> s'.sink.global == s.sink.global)
      && (items != [] ==> s'.sink.global.Some?)
  {
    if items != [] {
      var drawn := AllocateMany(s.file, |items|).value;
      var ps := BatchPayloads(items, city, drawn.0);
      SendAllGrows(s.sink, Attempts(ps, ForUnit(connectOk, u), ForUnit(acked, u)));
    }
  }

  /** `process_city_results` has the four properties the loop relies on,
      whatever the broker does. */
  lemma BatchesProperties(connectOk: (nat, nat) -> bool, acked: (nat, nat) -> bool)
    ensures KeepsMessages(Batches(connectOk, acked))
    ensures KeepsSender(Batches(connectOk, acked))
    ensures SkipsEmpty(Batches(connectOk, acked))
    ensures RaisesOnCorrupt(Batches(connectOk, acked))
  {
    var process := Batches(connectOk, acked);
    forall u: nat, items: seq<Record>, city: string, s: RunState | process(u, items, city, s).Some?
      ensures Messages(s.sink.log) <= Messages(process(u, items, city, s).value.sink.log)
      ensures s.sink.global.Some? ==> process(u, items, city, s).value.sink.global == s.sink.global
      ensures items != [] ==> process(u, items, city, s).value.sink.global.Some?
    {
      UnitStepEffect(u, items, city, s, connectOk, acked);
    }
    forall u: nat, items: seq<Record>, city: string, s: RunState | s.file.Corrupt? && items != []
      ensures process(u, items, city, s).None?
    {
      CorruptCounterFailsBatch(s.file, |items|);
    }
  }

  /** Completed units only add acknowledged messages. */
  lemma {:induction false} RunUnitsGrows(plan: seq<Call>, scrapeResult: (nat, Call) -> Option<seq<Record>>,
                                         process: UnitRun, start: RunState, n: nat)
    requires n <= |plan|
    requires KeepsMessages(process)
    requires RunUnits(plan, scrapeResult, process, start, n).Some?
    ensures Messages(start.sink.log) <= Messages(RunUnits(plan, scrapeResult, process, start, n).value.sink.log)
    decreases n
  {
    if n > 0 {
      RunUnitsLast(plan, scrapeResult, process, start, n);
      RunUnitsGrows(plan, scrapeResult, process, start, n - 1);
    }
  }

  /** The sender the loop ends with is the one it started with, if any;
      otherwise one exists exactly when some completed unit published,
      which is the sender that the final close flushes and closes. */
  lemma {:induction false} RunUnitsSender(plan: seq<Call>, scrapeResult: (nat, Call) -> Option<seq<Record>>,
                                          process: UnitRun, start: RunState, n: nat)
    requires n <= |plan|
    requires KeepsSender(process) && SkipsEmpty(process)
    requires RunUnits(plan, scrapeResult, process, start, n).Some?
    ensures var s := RunUnits(plan, scrapeResult, process, start, n).value;
      && (start.sink.global.Some? ==> s.sink.global == start.sink.global)
      && (forall u :: 0 <= u < n && Produced(plan, scrapeResult, u) ==> s.sink.global.Some?)
      && ((forall u :: 0 <= u < n ==> !Produced(plan, scrapeResult, u)) ==> s == start)
    decreases n
  {
    if n > 0 {
      RunUnitsLast(plan, scrapeResult, process, start, n);
      RunUnitsSender(plan, scrapeResult, process, start, n - 1);
      var items := scrapeResult(n - 1, plan[n - 1]).value;
      assert Produced(plan, scrapeResult, n - 1) <==> items != [];
    }
  }

  /** On a corrupt counter file the loop gets past only units that scraped
      nothing, and they change nothing: the first unit with records raises. */
  lemma {:induction false} CorruptCounterStops(plan: seq<Call>, scrapeResult: (nat, Call) -> Option<seq<Record>>,
                                               process: UnitRun, start: RunState, n: nat)
    requires n <= |plan|
    requires SkipsEmpty(process) && RaisesOnCorrupt(process)
    requires start.file.Corrupt?
    requires RunUnits(plan, scrapeResult, process, start, n).Some?
    ensures RunUnits(plan, scrapeResult, process, start, n) == Some(start)
    ensures forall u :: 0 <= u < n ==> !Produced(plan, scrapeResult, u)
    decreases n
  {
    if n > 0 {
      RunUnitsLast(plan, scrapeResult, process, start, n);
      CorruptCounterStops(plan, scrapeResult, process, start, n - 1);
    }
  }

  /** Running one unit more is processing its records on the state the
      earlier units left. */
  lemma RunUnitsNext(plan: seq<Call>, scrapeResult: (nat, Call) -> Option<seq<Record>>,
                     process: UnitRun, start: RunState, n: nat, items: seq<Record>)
    requires n < |plan|
    requires RunUnits(plan, scrapeResult, process, start, n).Some?
    requires scrapeResult(n, plan[n]) == Some(items)
    ensures RunUnits(plan, scrapeResult, process, start, n + 1)
      == process(n, items, plan[n].unitLabel, RunUnits(plan, scrapeResult, process, start, n).value)
  {
  }

  /** Any outcome that meets the contract of `Batch.ProcessCityResults` is
      the loop's view of that call: `None` when it raises, and otherwise the
      counter file and sender state it leaves. */
  lemma ProcessedIsUnitStep(u: nat, items: seq<Record>, city: string, s: RunState,
                            connectOk: (nat, nat) -> bool, acked: (nat, nat) -> bool,
                            res: Result<Option<seq<Payload>>, AllocError>, file': CounterFile, sink': SinkState<Payload>)
    requires items == [] ==> res == Success(None) && file' == s.file && sink' == s.sink
    requires res.Success? <==> AllocateMany(s.file, |items|).Success?
    requires items != [] && res.Success? ==>
      var drawn := AllocateMany(s.file, |items|).value;
      && file' == drawn.1
      && sink' == SendAll(s.sink, Attempts(BatchPayloads(items, city, drawn.0), ForUnit(connectOk, u), ForUnit(acked, u))).0
    ensures res.Failure? ==> Batches(connectOk, acked)(u, items, city, s).None?
    ensures res.Success? ==> Batches(connectOk, acked)(u, items, city, s) == Some(RunState(file', sink'))
  {
    assert Batches(connectOk, acked)(u, items, city, s) == UnitStep(u, items, city, s, connectOk, acked);
  }

  /** What the main loop's contract draws from the completed units under
      `process_city_results`. */
  lemma BatchRunOutcome(plan: seq<Call>, scrapeResult: (nat, Call) -> Option<seq<Record>>,
                        connectOk: (nat, nat) -> bool, acked: (nat, nat) -> bool, start: RunState, n: nat)
    requires n <= |plan|
    requires RunUnits(plan, scrapeResult, Batches(connectOk, acked), start, n).Some?
    ensures var s := RunUnits(plan, scrapeResult, Batches(connectOk, acked), start, n).value;
      && (forall u :: 0 <= u < n ==> scrapeResult(u, plan[u]).Some?)
      && Messages(start.sink.log) <= Messages(s.sink.log)
      && (start.sink.global.Some? ==> s.sink.global == start.sink.global)
      && (forall u :: 0 <= u < n && Produced(plan, scrapeResult, u) ==> s.sink.global.Some?)
      && (start.file.Corrupt? ==> s == start && forall u :: 0 <= u < n ==> !Produced(plan, scrapeResult, u))
  {
    var process := Batches(connectOk, acked);
    BatchesProperties(connectOk, acked);
    RunUnitsScraped(plan, scrapeResult, process, start, n);
    RunUnitsGrows(plan, scrapeResult, process, start, n);
    RunUnitsSender(plan, scrapeResult, process, start, n);
    if start.file.Corrupt? {
      CorruptCounterStops(plan, scrapeResult, process, start, n);
    }
  }

  /** `main()` over a plan. `scrapeResult(u, c)` is what running call `c` as
      unit `u` returns, `None` when it raises; `connectOk(u, i)` and
      `acked(u, i)` are the broker's behaviour for payload `i` of unit `u`.
      The loop runs the units in order until one raises in its scrape or in
      `process_city_results`; `done` units complete, and the state they
      leave is `RunUnits` of them. Either way the `finally` clause closes
      the global sender last, `beforeClose` being the state it closes. */
  method RunMain(plan: seq<Call>, file: CounterFile, sink: SinkState<Payload>,
                 scrapeResult: (nat, Call) -> Option<seq<Record>>,
                 connectOk: (nat, nat) -> bool, acked: (nat, nat) -> bool)
    returns (done: nat, escaped: bool, file': CounterFile, beforeClose: SinkState<Payload>, sink': SinkState<Payload>)
    ensures done <= |plan|
    ensures escaped <==> done < |plan|
    ensures RunUnits(plan, scrapeResult, Batches(connectOk, acked), RunState(file, sink), done)
      == Some(RunState(file', beforeClose))
    ensures escaped ==> RunUnits(plan, scrapeResult, Batches(connectOk, acked), RunState(file, sink), done + 1).None?
    ensures forall u :: 0 <= u < done ==> scrapeResult(u, plan[u]).Some?
    ensures escaped ==> scrapeResult(done, plan[done]).None?
                        || (scrapeResult(done, plan[done]).value != [] && file.Corrupt? && file' == file)
    ensures sink' == CloseSender(beforeClose) && sink'.global.None?
    ensures sink.global.Some? ==> beforeClose.global == sink.global
    ensures forall u :: 0 <= u < done && Produced(plan, scrapeResult, u) ==> beforeClose.global.Some?
    ensures file.Corrupt? ==> file' == file && beforeClose == sink
                              && forall u :: 0 <= u < done ==> !Produced(plan, scrapeResult, u)
    ensures Messages(sink.log) <= Messages(sink'.log)
  {
    var start := RunState(file, sink);
    var process := Batches(connectOk, acked);
    var f := file;
    var st := sink;
    done := 0;
    escaped := false;
    while done < |plan|
      invariant done <= |plan|
      invariant RunUnits(plan, scrapeResult, process, start, done) == Some(RunState(f, st))
      invariant !file.Corrupt? ==> !f.Corrupt?
    {
      var items := scrapeResult(done, plan[done]);
      if items.None? {
        escaped := true;
        break;
      }
      var res, f1, st1 := ProcessCityResults(items.value, plan[done].unitLabel, f, st,
                                             ForUnit(connectOk, done), ForUnit(acked, done));
      RunUnitsNext(plan, scrapeResult, process, start, done, items.value);
      ProcessedIsUnitStep(done, items.value, plan[done].unitLabel, RunState(f, st), connectOk, acked, res, f1, st1);
      if res.Failure? {
        escaped := true;
        break;
      }
      f := f1;
      st := st1;
      done := done + 1;
    }
    file' := f;
    beforeClose := st;
    BatchRunOutcome(plan, scrapeResult, connectOk, acked, start, done);
    CloseSenderMessages(st);
    sink' := CloseSender(st);
  }
}

=== FILE: records.dfy ===
/** Scraped records: Python dictionaries from string keys to JSON-like values. */
module Records {

  /** The values a scraped record holds. Numbers are kept as integers: the
      model never does arithmetic on them, only asks whether they are zero. */
  datatype Value = Null | Str(s: string) | Num(n: int) | StrList(items: seq<string>)

  type Record = map<string, Value>

  /** Python truthiness: `None`, `""`, `0` and `[]` are false. */
  predicate Truthy(v: Value) {
    match v
    case Null => false
    case Str(s) => s != ""
    case Num(n) => n != 0
    case StrList(xs) => xs != []
  }

  /** `d.get(key, default)`: the default applies only when the key is absent. */
  function Get(d: Record, key: string, default: Value): Value {
    if key in d then d[key] else default
  }

  /** `if "city" not in item: item["city"] = city`. */
  function StampCity(item: Record, city: string): (r: Record)
    ensures r.Keys == item.Keys + {"city"}
    ensures forall k :: k in item ==> r[k] == item[k]
    ensures "city" !in item ==> r["city"] == Str(city)
  {
    if "city" in item then item else item["city" := Str(city)]
  }

  /** Stamping twice with any cities is stamping once with the first. */
  lemma StampCityIdempotent(item: Record, c1: string, c2: string)
    ensures StampCity(StampCity(item, c1), c2) == StampCity(item, c1)
  {
  }
}

=== FILE: sender.dfy ===
/** The Kafka sender: one lazily created, process-wide producer connection
    that the pipeline publishes payloads through and closes at the end.

    The broker is not modelled. Whether a connection attempt succeeds and
    whether a publish is acknowledged within its timeout are parameters
    (`connectOk`, `acked`), and the effect of each call is recorded as a
    sequence of events. `Messages` reads back the acknowledged messages; a
    publish reported as failed after its wait may still reach the broker
    later through the producer's retries or the flush at close, and that
    is not modelled. */
module Sender {
  import opened Wrappers

  const BootstrapServers := "kafka:9092"
  const Topic := "scraper-data"

  /** The settings the producer is created with. */
  datatype ProducerConfig = ProducerConfig(servers: string, acks: string, retries: int)

  const Config := ProducerConfig(BootstrapServers, "all", 3)

  /** A `KafkaSender` instance; `producer` is `None` when connecting failed. */
  datatype KafkaSender = KafkaSender(topic: string, servers: string, producer: Option<ProducerConfig>)

  datatype Event<M> =
    | Connected(servers: string)
    | ConnectFailed(servers: string)
    | Acknowledged(topic: string, msg: M)
    | SendFailed(msg: M)
    | Unavailable
    | Flushed
    | Closed

  /** The module-level `kafka_sender` and the events so far. */
  datatype SinkState<M> = SinkState(global: Option<KafkaSender>, log: seq<Event<M>>)

  function Initial<M>(): SinkState<M> {
    SinkState(None, [])
  }

  /** The messages the broker acknowledged, in order. */
  function Messages<M>(log: seq<Event<M>>): (ms: seq<M>)
    ensures |ms| <= |log|
  {
    if log == [] then []
    else Messages(log[..|log| - 1]) + (if log[|log| - 1].Acknowledged? then [log[|log| - 1].msg] else [])
  }

  lemma {:induction false} MessagesAppend<M>(a: seq<Event<M>>, b: seq<Event<M>>)
    ensures Messages(a + b) == Messages(a) + Messages(b)
    decreases |b|
  {
    if b == [] {
      assert a + b == a;
    } else {
      var b' := b[..|b| - 1];
      assert (a + b)[..|a + b| - 1] == a + b';
      MessagesAppend(a, b');
    }
  }

  /** `KafkaSender()`: set the defaults and try to connect once. */
  function NewSender<M>(connectOk: bool): (r: (KafkaSender, seq<Event<M>>))
    ensures r.0.topic == Topic && r.0.servers == BootstrapServers
    ensures r.0.producer.Some? <==> connectOk
    ensures r.0.producer.Some? ==> r.0.producer.value == Config
    ensures Messages(r.1) == []
  {
    if connectOk then (KafkaSender(Topic, BootstrapServers, Some(Config)), [Connected(BootstrapServers)])
    else (KafkaSender(Topic, BootstrapServers, None), [ConnectFailed(BootstrapServers)])
  }

  /** `KafkaSender.send(data)`: fail without a producer; otherwise publish and
      wait for the acknowledgement, reporting any error as `False`. */
  function Send<M>(s: KafkaSender, msg: M, acked: bool): (r: (bool, seq<Event<M>>))
    ensures r.0 <==> s.producer.Some? && acked
    ensures r.0 ==> Messages(r.1) == [msg]
    ensures !r.0 ==> Messages(r.1) == []
    ensures forall i :: 0 <= i < |r.1| && r.1[i].Acknowledged? ==> r.1[i].topic == s.topic
  {
    if s.producer.None? then (false, [Unavailable])
    else if acked then (true, [Acknowledged(s.topic, msg)])
    else (false, [SendFailed(msg)])
  }

  /** `KafkaSender.close()`: flush and close the producer, if there is one. */
  function Close<M>(s: KafkaSender): (events: seq<Event<M>>)
    ensures s.producer.None? <==> events == []
    ensures s.producer.Some? ==> events == [Flushed, Closed]
    ensures Messages(events) == []
  {
    if s.producer.Some? then [Flushed, Closed] else []
  }

  /** `get_kafka_sender()`: create the global sender on first use only. */
  function GetSender<M>(st: SinkState<M>, connectOk: bool): (r: (SinkState<M>, KafkaSender))
    ensures r.0.global == Some(r.1)
    ensures st.global.Some? ==> r.0 == st
    ensures st.global.None? ==> r.1 == NewSender<M>(connectOk).0
  {
    if st.global.Some? then (st, st.global.value)
    else
      var created := NewSender<M>(connectOk);
      (SinkState(Some(created.0), st.log + created.1), created.0)
  }

  /** Getting the sender adds no acknowledged message. */
  lemma GetSenderMessages<M>(st: SinkState<M>, connectOk: bool)
    ensures Messages(GetSender(st, connectOk).0.log) == Messages(st.log)
  {
    if st.global.None? {
      MessagesAppend(st.log, NewSender<M>(connectOk).1);
    }
  }

  /** `send_to_kafka(data)`. */
  function SendToKafka<M>(st: SinkState<M>, msg: M, connectOk: bool, acked: bool): (r: (SinkState<M>, bool))
    ensures r.1 <==> GetSender(st, connectOk).1.producer.Some? && acked
    ensures r.0.global == Some(GetSender(st, connectOk).1)
  {
    var got := GetSender(st, connectOk);
    var sent := Send(got.1, msg, acked);
    (SinkState(got.0.global, got.0.log + sent.1), sent.0)
  }

  /** `send_to_kafka` adds the message to the acknowledged ones exactly when
      it reports success, and adds nothing else. */
  lemma SendToKafkaMessages<M>(st: SinkState<M>, msg: M, connectOk: bool, acked: bool)
    ensures var r := SendToKafka(st, msg, connectOk, acked);
      && (r.1 ==> Messages(r.0.log) == Messages(st.log) + [msg])
      && (!r.1 ==> Messages(r.0.log) == Messages(st.log))
  {
    var got := GetSender(st, connectOk);
    GetSenderMessages(st, connectOk);
    MessagesAppend(got.0.log, Send(got.1, msg, acked).1);
  }

  /** `close_kafka_sender()`: close and forget the global sender. */
  function CloseSender<M>(st: SinkState<M>): (r: SinkState<M>)
    ensures r.global.None?
    ensures st.global.None? ==> r == st
    ensures st.global.Some? ==> r.log == st.log + Close(st.global.value)
  {
    if st.global.Some? then SinkState(None, st.log + Close<M>(st.global.value)) else st
  }

  /** Closing adds no acknowledged message. */
  lemma CloseSenderMessages<M>(st: SinkState<M>)
    ensures Messages(CloseSender(st).log) == Messages(st.log)
  {
    if st.global.Some? {
      MessagesAppend(st.log, Close<M>(st.global.value));
    }
  }

  /** Closing twice is closing once, and closing before any send does nothing. */
  lemma CloseSenderIdempotent<M>(st: SinkState<M>)
    ensures CloseSender(CloseSender(st)) == CloseSender(st)
    ensures CloseSender(Initial<M>()) == Initial<M>()
  {
  }

  /** Once the global sender exists it is reused: the later connection
      outcomes are never consulted, until the sender is closed. */
  lemma GetSenderReuses<M>(st: SinkState<M>, c1: bool, c2: bool)
    requires st.global.Some?
    ensures GetSender(st, c1) == GetSender(st, c2) == (st, st.global.value)
  {
  }

  /** A batch of publishes: message, connection outcome (used only when no
      sender exists yet) and acknowledgement. */
  datatype Attempt<M> = Attempt(msg: M, connectOk: bool, acked: bool)

  /** Publish each attempt in turn with `send_to_kafka`, collecting the
      returned flags. */
  function SendAll<M>(st: SinkState<M>, attempts: seq<Attempt<M>>): (r: (SinkState<M>, seq<bool>))
    ensures |r.1| == |attempts|
    ensures st.global.Some? ==> r.0.global == st.global
    ensures attempts != [] ==> r.0.global.Some?
    decreases |attempts|
  {
    if attempts == [] then (st, [])
    else
      var first := SendToKafka(st, attempts[0].msg, attempts[0].connectOk, attempts[0].acked);
      var rest := SendAll(first.0, attempts[1..]);
      (rest.0, [first.1] + rest.1)
  }

  /** A batch of publishes only ever adds acknowledged messages. */
  lemma {:induction false} SendAllGrows<M>(st: SinkState<M>, attempts: seq<Attempt<M>>)
    ensures Messages(st.log) <= Messages(SendAll(st, attempts).0.log)
    decreases |attempts|
  {
    if attempts != [] {
      var st1 := SendToKafka(st, attempts[0].msg, attempts[0].connectOk, attempts[0].acked).0;
      SendToKafkaMessages(st, attempts[0].msg, attempts[0].connectOk, attempts[0].acked);
      SendAllGrows(st1, attempts[1..]);
    }
  }

  /** When the first connection fails the global sender keeps its missing
      producer: every later publish fails, whatever the broker would do,
      and nothing is published until `close_kafka_sender` runs. */
  lemma {:induction false} FailedConnectIsSticky<M>(st: SinkState<M>, attempts: seq<Attempt<M>>)
    requires st.global.Some? && st.global.value.producer.None?
    ensures forall i :: 0 <= i < |attempts| ==> !SendAll(st, attempts).1[i]
    ensures Messages(SendAll(st, attempts).0.log) == Messages(st.log)
    decreases |attempts|
  {
    if attempts != [] {
      var st1 := SendToKafka(st, attempts[0].msg, attempts[0].connectOk, attempts[0].acked).0;
      SendToKafkaMessages(st, attempts[0].msg, attempts[0].connectOk, attempts[0].acked);
      FailedConnectIsSticky(st1, attempts[1..]);
    }
  }

  /** With a connected sender, every publish of a batch reports exactly
      whether the broker acknowledged it. */
  lemma {:induction false} ConnectedBatchFlags<M>(st: SinkState<M>, attempts: seq<Attempt<M>>)
    requires st.global.Some? && st.global.value.producer.Some?
    ensures forall i :: 0 <= i < |attempts| ==> SendAll(st, attempts).1[i] == attempts[i].acked
    decreases |attempts|
  {
    if attempts != [] {
      var x := attempts[0];
      var first := SendToKafka(st, x.msg, x.connectOk, x.acked);
      assert first.0.global == st.global;
      ConnectedBatchFlags(first.0, attempts[1..]);
      forall i | 1 <= i < |attempts|
        ensures SendAll(st, attempts).1[i] == attempts[i].acked
      {
        assert attempts[1..][i - 1] == attempts[i];
      }
    }
  }

  /** With a connected sender, one publish keeps the sender and adds its
      message exactly when the broker acknowledges it. */
  lemma ConnectedSendOne<M>(st: SinkState<M>, x: Attempt<M>)
    requires st.global.Some? && st.global.value.producer.Some?
    ensures var r := SendToKafka(st, x.msg, x.connectOk, x.acked).0;
      && r.global == st.global
      && Messages(r.log) == Messages(st.log) + (if x.acked then [x.msg] else [])
  {
    SendToKafkaMessages(st, x.msg, x.connectOk, x.acked);
  }

  /** With a connected sender, a batch adds exactly its acknowledged
      messages, in order. */
  lemma {:induction false} ConnectedBatchDelivers<M>(st: SinkState<M>, attempts: seq<Attempt<M>>)
    requires st.global.Some? && st.global.value.producer.Some?
    ensures Messages(SendAll(st, attempts).0.log) == Messages(st.log) + Acked(attempts)
    decreases |attempts|
  {
    if attempts != [] {
      var x := attempts[0];
      var st1 := SendToKafka(st, x.msg, x.connectOk, x.acked).0;
      ConnectedSendOne(st, x);
      ConnectedBatchDelivers(st1, attempts[1..]);
      SendAllFirst(st, attempts);
      var before, head, tail := Messages(st.log), (if x.acked then [x.msg] else []), Acked(attempts[1..]);
      assert Acked(attempts) == head + tail;
      assert (before + head) + tail == before + (head + tail);
    }
  }

  /** A batch is its first publish followed by the rest. */
  lemma SendAllFirst<M>(st: SinkState<M>, attempts: seq<Attempt<M>>)
    requires attempts != []
    ensures SendAll(st, attempts).0
      == SendAll(SendToKafka(st, attempts[0].msg, attempts[0].connectOk, attempts[0].acked).0, attempts[1..]).0
  {
  }

  /** The messages of the acknowledged attempts, in order. */
  function Acked<M>(attempts: seq<Attempt<M>>): (ms: seq<M>)
    ensures |ms| <= |attempts|
    decreases |attempts|
  {
    if attempts == [] then []
    else (if attempts[0].acked then [attempts[0].msg] else []) + Acked(attempts[1..])
  }

  /** Closing forgets a failed sender, so the next publish connects afresh. */
  lemma CloseThenReconnect<M>(st: SinkState<M>, msg: M)
    ensures SendToKafka(CloseSender(st), msg, true, true).1
    ensures SendToKafka(CloseSender(st), msg, false, true).1 == false
  {
  }
}

=== FILE: testrun.dfy ===
/** `test.py`: scrape with one chosen adapter, for one city or all of them,
    and keep the raw (city-stamped) results instead of publishing them. */
module TestRun {
  import opened Wrappers
  import opened Text
  import opened Records
  import opened Orchestrator

  const GeneralLabel := "general"

  /** The first source whose adapter has the requested name. */
  function FindSource(sources: seq<Source>, name: string): (r: Option<nat>)
    ensures r.Some? ==> r.value < |sources| && sources[r.value].scraper == name
    ensures r.Some? ==> forall j :: 0 <= j < r.value ==> sources[j].scraper != name
    ensures r.None? <==> forall j :: 0 <= j < |sources| ==> sources[j].scraper != name
    decreases |sources|
  {
    if sources == [] then None
    else if sources[0].scraper == name then Some(0)
    else
      match FindSource(sources[1..], name)
      case None => None
      case Some(k) => Some(k + 1)
  }

  /** The cities to run: the `--ville` argument alone when it is given and
      non-empty, every configured city otherwise. */
  function SelectedCities(ville: Option<string>, configured: seq<string>): (cs: seq<string>)
    ensures ville.Some? && ville.value != "" ==> cs == [ville.value]
    ensures !(ville.Some? && ville.value != "") ==> cs == configured
  {
    if ville.Some? && ville.value != "" then [ville.value] else configured
  }

  /** One iteration of the city loop: the call made, and the city stamped on
      the results (`None` for a source without placeholder, whose results are
      saved unstamped under "general"). */
  datatype TestUnit = TestUnit(call: Call, stamp: Option<string>)

  /** The iterations of the city loop for the chosen source. Every city runs
      the source, even one without placeholder; in single-city mode the loop
      stops after its first iteration. */
  function TestUnits(src: Source, cities: seq<string>, singleCity: bool,
                     declaresParallel: string -> bool, opts: Options): (us: seq<TestUnit>)
    ensures singleCity ==> |us| == (if cities == [] then 0 else 1)
    ensures !singleCity ==> |us| == |cities|
    ensures forall i :: 0 <= i < |us| ==> us[i].call.scraper == src.scraper
    ensures Templated(src) ==> forall i :: 0 <= i < |us| ==>
      us[i] == TestUnit(Call(src.scraper, ReplaceAll(src.url, Placeholder, cities[i]), cities[i],
                             OptionsFor(src.scraper, declaresParallel, opts)), Some(cities[i]))
    ensures !Templated(src) ==> forall i :: 0 <= i < |us| ==>
      us[i] == TestUnit(Call(src.scraper, src.url, GeneralLabel, OptionsFor(src.scraper, declaresParallel, opts)), None)
  {
    var n := if singleCity && cities != [] then 1 else |cities|;
    var o := OptionsFor(src.scraper, declaresParallel, opts);
    seq(n, i requires 0 <= i < n =>
      if Templated(src) then
        TestUnit(Call(src.scraper, ReplaceAll(src.url, Placeholder, cities[i]), cities[i], o), Some(cities[i]))
      else TestUnit(Call(src.scraper, src.url, GeneralLabel, o), None))
  }

  /** The whole run's iterations: none when no source has the requested adapter. */
  function TestPlan(sources: seq<Source>, name: string, ville: Option<string>, configured: seq<string>,
                    declaresParallel: string -> bool, opts: Options): (r: Option<seq<TestUnit>>)
    ensures r.None? <==> FindSource(sources, name).None?
    ensures r.Some? ==> r.value == TestUnits(sources[FindSource(sources, name).value],
      SelectedCities(ville, configured), ville.Some? && ville.value != "", declaresParallel, opts)
  {
    match FindSource(sources, name)
    case None => None
    case Some(k) =>
      Some(TestUnits(sources[k], SelectedCities(ville, configured), ville.Some? && ville.value != "",
                     declaresParallel, opts))
  }

  /** In single-city mode exactly one iteration runs, for that city. */
  lemma SingleCityRunsOnce(sources: seq<Source>, name: string, city: string, configured: seq<string>,
                           declaresParallel: string -> bool, opts: Options)
    requires city != "" && FindSource(sources, name).Some?
    ensures var r := TestPlan(sources, name, Some(city), configured, declaresParallel, opts);
      && r.Some? && |r.value| == 1
      && (r.value[0].call.unitLabel == city || r.value[0].call.unitLabel == GeneralLabel)
  {
  }

  /** Stamp every record of a batch with the city, where it has none. */
  function StampAll(items: seq<Record>, city: string): (r: seq<Record>)
    ensures |r| == |items|
    ensures forall i :: 0 <= i < |items| ==> r[i] == StampCity(items[i], city)
    ensures forall i :: 0 <= i < |items| ==> "city" in r[i]
  {
    seq(|items|, i requires 0 <= i < |items| => StampCity(items[i], city))
  }

  /** `save_results(items, city)`: nothing for an empty batch, otherwise the
      batch unchanged (written to a file that is not modelled). */
  function SaveResults(items: seq<Record>): (r: Option<seq<Record>>)
    ensures r.None? <==> items == []
    ensures r.Some? ==> r.value == items
  {
    if items == [] then None else Some(items)
  }

  /** A saved batch: the label it was saved under and its records. */
  datatype Saved = Saved(saveLabel: string, items: seq<Record>)

  /** What an iteration hands to `save_results`: the scraped batch, stamped
      when the source is templated. */
  function UnitBatch(unit: TestUnit, items: seq<Record>): (b: seq<Record>)
    ensures |b| == |items|
  {
    if unit.stamp.Some? then StampAll(items, unit.stamp.value) else items
  }

  /** The batches saved by the first `n` iterations, in order: the
      non-empty ones, under their iteration's label. */
  function SavedBatches(units: seq<TestUnit>, scrapeResult: (nat, Call) -> Option<seq<Record>>, n: nat): (ss: seq<Saved>)
    requires n <= |units|
    requires forall u :: 0 <= u < n ==> scrapeResult(u, units[u].call).Some?
    ensures |ss| <= n
    ensures forall k :: 0 <= k < |ss| ==> ss[k].items != []
  {
    if n == 0 then []
    else
      var b := UnitBatch(units[n - 1], scrapeResult(n - 1, units[n - 1].call).value);
      SavedBatches(units, scrapeResult, n - 1) + (if b == [] then [] else [Saved(units[n - 1].call.unitLabel, b)])
  }

  /** Every iteration with a non-empty batch is saved, stamped with its
      city when its source is templated and as scraped otherwise. */
  lemma {:induction false} SavedBatchesComplete(units: seq<TestUnit>, scrapeResult: (nat, Call) -> Option<seq<Record>>, n: nat)
    requires n <= |units|
    requires forall u :: 0 <= u < n ==> scrapeResult(u, units[u].call).Some?
    ensures forall u :: 0 <= u < n && scrapeResult(u, units[u].call).value != [] ==>
      Saved(units[u].call.unitLabel, UnitBatch(units[u], scrapeResult(u, units[u].call).value))
        in SavedBatches(units, scrapeResult, n)
  {
    if n > 0 {
      SavedBatchesComplete(units, scrapeResult, n - 1);
    }
  }

  /** `main()` of `test.py` over its iterations. `scrapeResult(u, c)` is what
      the adapter returns for call `c` in iteration `u`, `None` when it
      raises; an exception ends the run (it is logged, not re-raised). */
  method RunTest(units: seq<TestUnit>, scrapeResult: (nat, Call) -> Option<seq<Record>>)
    returns (saved: seq<Saved>, done: nat)
    ensures done <= |units|
    ensures done < |units| ==> scrapeResult(done, units[done].call).None?
    ensures forall u :: 0 <= u < done ==> scrapeResult(u, units[u].call).Some?
    ensures saved == SavedBatches(units, scrapeResult, done)
  {
    saved := [];
    done := 0;
    while done < |units|
      invariant done <= |units|
      invariant forall u :: 0 <= u < done ==> scrapeResult(u, units[u].call).Some?
      invariant saved == SavedBatches(units, scrapeResult, done)
    {
      var unit := units[done];
      var items := scrapeResult(done, unit.call);
      if items.None? {
        return;
      }
      var kept := SaveResults(UnitBatch(unit, items.value));
      if kept.Some? {
        saved := saved + [Saved(unit.call.unitLabel, kept.value)];
      }
      done := done + 1;
    }
  }
}

=== FILE: text.dfy ===
/** The string operations of Python's `str` that the pipeline relies on:
    `in`, `startswith`, `strip`, `split`, `join` and `replace`. */
module Text {

  predicate IsPrefix(p: string, s: string) {
    |p| <= |s| && s[..|p|] == p
  }

  /** `p in s` for strings. */
  predicate Contains(s: string, p: string)
    decreases |s|
  {
    IsPrefix(p, s) || (|s| > 0 && Contains(s[1..], p))
  }

  /** Whitespace as Python's `str.strip()` with no argument sees it. */
  const Whitespace: set<char> := {
    '\t', '\n', '\U{0B}', '\U{0C}', '\r', '\U{1C}', '\U{1D}', '\U{1E}', '\U{1F}', ' ',
    '\U{85}', '\U{A0}', '\U{1680}', '\U{2000}', '\U{2001}', '\U{2002}', '\U{2003}',
    '\U{2004}', '\U{2005}', '\U{2006}', '\U{2007}', '\U{2008}', '\U{2009}', '\U{200A}',
    '\U{2028}', '\U{2029}', '\U{202F}', '\U{205F}', '\U{3000}'
  }

  /** `s.lstrip(cs)`: the longest suffix of `s` whose first character is not in `cs`. */
  function TrimStart(s: string, cs: set<char>): (r: string)
    ensures |r| <= |s| && r == s[|s| - |r|..]
    ensures |r| > 0 ==> r[0] !in cs
  {
    if |s| > 0 && s[0] in cs then TrimStart(s[1..], cs) else s
  }

  /** Everything `lstrip` cuts away belongs to `cs`. */
  lemma {:induction false} TrimStartCuts(s: string, cs: set<char>)
    ensures forall k :: 0 <= k < |s| - |TrimStart(s, cs)| ==> s[k] in cs
  {
    if |s| > 0 && s[0] in cs {
      TrimStartCuts(s[1..], cs);
      forall k | 1 <= k < |s| - |TrimStart(s, cs)|
        ensures s[k] in cs
      {
        assert s[k] == s[1..][k - 1];
      }
    }
  }

  /** `s.rstrip(cs)`: the longest prefix of `s` whose last character is not in `cs`. */
  function TrimEnd(s: string, cs: set<char>): (r: string)
    ensures |r| <= |s| && r == s[..|r|]
    ensures |r| > 0 ==> r[|r| - 1] !in cs
  {
    if |s| > 0 && s[|s| - 1] in cs then TrimEnd(s[..|s| - 1], cs) else s
  }

  /** Everything `rstrip` cuts away belongs to `cs`. */
  lemma {:induction false} TrimEndCuts(s: string, cs: set<char>)
    ensures forall k :: |TrimEnd(s, cs)| <= k < |s| ==> s[k] in cs
  {
    if |s| > 0 && s[|s| - 1] in cs {
      TrimEndCuts(s[..|s| - 1], cs);
      forall k | |TrimEnd(s, cs)| <= k < |s| - 1
        ensures s[k] in cs
      {
        assert s[k] == s[..|s| - 1][k];
      }
    }
  }

  /** `s.strip(cs)`: `s` without its leading and trailing characters from `cs`. */
  function StripChars(s: string, cs: set<char>): (r: string)
  {
    TrimEnd(TrimStart(s, cs), cs)
  }

  /** `s.strip()`. */
  function Strip(s: string): string {
    StripChars(s, Whitespace)
  }

  /** What stripping keeps: the slice of `s` starting after its leading run
      of `cs` characters; everything cut away on either side belongs to `cs`,
      and the kept slice neither starts nor ends with a character of `cs`. */
  lemma StripCharsSlice(s: string, cs: set<char>)
    ensures var t := TrimStart(s, cs); var r := TrimEnd(t, cs); var i := |s| - |t|;
      && r == StripChars(s, cs)
      && i + |r| <= |s| && r == s[i..i + |r|]
      && (forall k :: 0 <= k < i ==> s[k] in cs)
      && (forall k :: i + |r| <= k < |s| ==> s[k] in cs)
      && (|r| > 0 ==> r[0] !in cs && r[|r| - 1] !in cs)
  {
    var t := TrimStart(s, cs);
    var r := TrimEnd(t, cs);
    var i := |s| - |t|;
    TrimStartCuts(s, cs);
    TrimEndCuts(t, cs);
    StripCharsBare(s, cs);
    PrefixOfSuffix(s, t, r, cs);
  }

  /** A prefix `r` of a suffix `t` of `s` is a slice of `s`, and what `r`
      leaves of `t` is what it leaves of `s`. */
  lemma PrefixOfSuffix(s: string, t: string, r: string, cs: set<char>)
    requires |t| <= |s| && t == s[|s| - |t|..]
    requires |r| <= |t| && r == t[..|r|]
    requires forall k :: |r| <= k < |t| ==> t[k] in cs
    ensures var i := |s| - |t|; r == s[i..i + |r|] && forall k :: i + |r| <= k < |s| ==> s[k] in cs
  {
    var i := |s| - |t|;
    forall k | i + |r| <= k < |s|
      ensures s[k] in cs
    {
      assert s[k] == t[k - i];
    }
  }

  /** A stripped string neither starts nor ends with a character of `cs`. */
  lemma StripCharsBare(s: string, cs: set<char>)
    ensures var r := StripChars(s, cs); |r| > 0 ==> r[0] !in cs && r[|r| - 1] !in cs
  {
    var t := TrimStart(s, cs);
    var r := TrimEnd(t, cs);
    if |r| > 0 {
      assert r[0] == t[0];
    }
  }

  /** A string with no character of `cs` at either end is its own strip. */
  lemma StripCharsNoop(s: string, cs: set<char>)
    requires |s| > 0 ==> s[0] !in cs && s[|s| - 1] !in cs
    ensures StripChars(s, cs) == s
  {
  }

  /** `sep.join(parts)`. */
  function Join(parts: seq<string>, sep: string): string
    decreases |parts|
  {
    if |parts| == 0 then ""
    else if |parts| == 1 then parts[0]
    else parts[0] + sep + Join(parts[1..], sep)
  }

  /** `s.split(p)` for a non-empty separator: the pieces between the
      leftmost non-overlapping occurrences of `p`. */
  function Split(s: string, p: string): (parts: seq<string>)
    requires |p| > 0
    ensures |parts| >= 1
    ensures IsPrefix(parts[0], s)
    decreases |s|
  {
    if |s| < |p| then [s]
    else if s[..|p|] == p then [""] + Split(s[|p|..], p)
    else
      var t := Split(s[1..], p);
      [[s[0]] + t[0]] + t[1..]
  }

  /** `s.replace(p, r)` for a non-empty pattern: every leftmost
      non-overlapping occurrence of `p`, scanning left to right, becomes `r`. */
  function ReplaceAll(s: string, p: string, r: string): string
    requires |p| > 0
    decreases |s|
  {
    if |s| < |p| then s
    else if s[..|p|] == p then r + ReplaceAll(s[|p|..], p, r)
    else [s[0]] + ReplaceAll(s[1..], p, r)
  }

  lemma JoinConsFirst(c: char, t: seq<string>, sep: string)
    requires |t| >= 1
    ensures Join([[c] + t[0]] + t[1..], sep) == [c] + Join(t, sep)
  {
    var u := [[c] + t[0]] + t[1..];
    if |t| > 1 {
      assert u[1..] == t[1..];
    }
  }

  lemma JoinConsEmpty(t: seq<string>, sep: string)
    requires |t| >= 1
    ensures Join([""] + t, sep) == sep + Join(t, sep)
  {
    assert ([""] + t)[1..] == t;
  }

  /** Joining the pieces of a split with the separator gives back the string. */
  lemma {:induction false} SplitJoinRoundTrip(s: string, p: string)
    requires |p| > 0
    ensures Join(Split(s, p), p) == s
    decreases |s|
  {
    if |s| < |p| {
    } else if s[..|p|] == p {
      SplitJoinRoundTrip(s[|p|..], p);
      JoinConsEmpty(Split(s[|p|..], p), p);
      assert s == s[..|p|] + s[|p|..];
    } else {
      SplitJoinRoundTrip(s[1..], p);
      JoinConsFirst(s[0], Split(s[1..], p), p);
      assert s == [s[0]] + s[1..];
    }
  }

  /** `s.replace(p, r)` is `r.join(s.split(p))`. */
  lemma {:induction false} ReplaceIsJoinOfSplit(s: string, p: string, r: string)
    requires |p| > 0
    ensures ReplaceAll(s, p, r) == Join(Split(s, p), r)
    decreases |s|
  {
    if |s| < |p| {
    } else if s[..|p|] == p {
      var t := Split(s[|p|..], p);
      ReplaceIsJoinOfSplit(s[|p|..], p, r);
      assert ([""] + t)[1..] == t;
    } else {
      var t := Split(s[1..], p);
      ReplaceIsJoinOfSplit(s[1..], p, r);
      JoinConsFirst(s[0], t, r);
    }
  }

  /** No piece of a split contains the separator. */
  lemma {:induction false} SplitPiecesAreFree(s: string, p: string)
    requires |p| > 0
    ensures forall k :: 0 <= k < |Split(s, p)| ==> !Contains(Split(s, p)[k], p)
    decreases |s|
  {
    var parts := Split(s, p);
    if |s| < |p| {
      ShortNotContains(s, p);
    } else if s[..|p|] == p {
      var t := Split(s[|p|..], p);
      SplitPiecesAreFree(s[|p|..], p);
      assert !Contains("", p);
      assert forall k :: 1 <= k < |parts| ==> parts[k] == t[k - 1];
    } else {
      var t := Split(s[1..], p);
      SplitPiecesAreFree(s[1..], p);
      var first := [s[0]] + t[0];
      assert IsPrefix(first, s) by {
        assert s == [s[0]] + s[1..];
        assert s[1..][..|t[0]|] == t[0];
      }
      assert first[1..] == t[0];
      assert !Contains(first, p);
      assert forall k :: 1 <= k < |parts| ==> parts[k] == t[k];
    }
  }

  lemma {:induction false} ShortNotContains(s: string, p: string)
    requires |s| < |p|
    ensures !Contains(s, p)
    decreases |s|
  {
    if |s| > 0 {
      ShortNotContains(s[1..], p);
    }
  }
}

=== FILE: wrappers.dfy ===
/** Failure-compatible wrappers shared by every module of the model. */
module Wrappers {

  /** Python's `None` / a present value. */
  datatype Option<+T> = None | Some(value: T)

  /** The outcome of an operation that can raise: a value or the error it raised. */
  datatype Result<+R, +E> = Success(value: R) | Failure(error: E)
}
